=== FILE: README.md ===
# Exchange-rate resolution engine of django-adapters, in Dafny

This project models the rate-resolution core of the django-adapters service.
Given a source currency, a target currency and a valuation date, the engine
works in this order:

- A self-pair resolves to 1.0 straight away.
- Otherwise it answers from the stored `CurrencyExchangeRate` rows. The first
  matching row wins.
- On a miss it asks the configured providers in ascending priority order.
  The first provider that answers wins.

There are two provider adapters.

- **Fixer** (`FixerAdapter`) fetches one quote table per date. It re-bases
  the table on every quoted currency (`convert_exchange_base`). It derives
  one row per ordered pair of distinct currencies (`parse_exchange_rates`)
  and bulk-inserts all of them (`store_values`). It then answers from the
  table whose base is the source currency.
- **Mock** (`MockAdapter`) delegates to the random client
  (`RandomClient.get_random_exchange`). The client remembers its last rate
  per pair and perturbs it by at most ±1 % on each request. A pair it has
  not seen before gets a fresh rate between 0 and 100.

Three operations are built on resolution:

- `get_currency_rates`: a time series of the rates from one currency to
  every registered currency, one record per day of an inclusive range;
- `get_exchanged_currency_amount`: today's conversion of an amount;
- `get_time_weighted_rate_return`: the single-period return between a start
  date and today.

How the model is laid out:

- The rate store is a sequence of rows in insertion order (`RateStore`).
- The service's quote table and each re-based table are a key sequence plus
  a value map (`CrossRates.Dict`), so their iteration order is kept. The
  `rates` dict of a time-series record is a plain map
  (`Operations.DailyRates`), and its key order is not modelled.
- The Fixer service is a map from dates to responses (`Adapters.Backend`). A
  date missing from the map stands for a `FixerioException`.
- Randomness is a stream of draws `nat -> int` read at a counter. The random
  client's `CurrencyLastExchange` table is a map from pairs to rates.
- Everything the engine mutates is threaded through explicitly as
  `Adapters.State`: the store, the baselines and the draw counter.
- The exceptions the three operations let escape (`TypeError`,
  `ZeroDivisionError`) become `Failure` values. The exceptions the live
  adapter could raise are excluded by preconditions instead (see "Left out").

Modules:

- `Wrappers`: `Option` and `Result`.
- `Models`: rows, providers, and the stable priority sort.
- `RateStore`: first-match lookup.
- `CrossRates`: re-basing and derivation.
- `RandomClient`
- `Adapters`
- `Resolution`: store, then providers.
- `Operations`: the three user-facing computations.

## Model

| member | source | states |
|---|---|---|
| Models.SortByPriority | exchange_rate/utils.py:31 | the providers are ordered by ascending priority, and the result is a permutation of the configured providers |
| Models.Insert | exchange_rate/utils.py:31 | inserting a provider into a priority-sorted list keeps it sorted and adds exactly that provider |
| RateStore.Lookup | exchange_rate/utils.py:25-29 | the filter-then-`first()` query: None exactly when no stored row matches source, target and date; otherwise the value of the earliest matching row |
| RateStore.LookupAppend | exchange_rate/utils.py:25-27 | looking up in a store with rows appended: the old rows answer first, and the new rows are consulted only on a miss |
| RateStore.LookupPrefix | exchange_rate/utils.py:25-29 | once a pair is stored, no later insertion changes what the lookup returns |
| RateStore.LookupMissPrefix | exchange_rate/utils.py:25-29 | a pair that misses a store also misses every earlier state of that store |
| CrossRates.Rebase | exchange_rate/adapters.py:48-49 | the table re-based on `b` keeps the date and the key order; each entry is the old quote divided by the quote of `b` |
| CrossRates.ConvertExchangeBase | exchange_rate/adapters.py:37-51 | one re-based table per quoted currency, in key order, each carrying the response date |
| CrossRates.RowsOf | exchange_rate/adapters.py:70-77 | one table yields rows from its base to every other key, with the table's date and value, and never a self-pair |
| CrossRates.ParseExchangeRates | exchange_rate/adapters.py:57-78 | no parsed row is a self-pair |
| CrossRates.ParseSound | exchange_rate/adapters.py:66-78 | every parsed row comes from some table: the table's base as source, the table's date, and one of its keys at that key's rate |
| CrossRates.ParseCovers | exchange_rate/adapters.py:66-78 | every key of every table other than its base yields its row, at the table's date and that key's rate |
| CrossRates.RebasedSelf | exchange_rate/adapters.py:49 | in its own re-based table a currency is quoted at exactly 1 |
| CrossRates.Reciprocal | exchange_rate/adapters.py:48-49 | the rate a to c times the rate c to a is 1 |
| CrossRates.Triangular | exchange_rate/adapters.py:48-49 | the rate a to c equals the rate a to b times the rate b to c |
| CrossRates.DeriveRows | exchange_rate/adapters.py:66-78 | every derived row carries the response date and two distinct quoted currencies, at the quote of the target over the quote of the source |
| CrossRates.DeriveCovers | exchange_rate/adapters.py:66-78 | every ordered pair of distinct quoted currencies is derived, at the quote of the target over the quote of the source |
| CrossRates.DeriveLookup | exchange_rate/adapters.py:104-105 | after derivation, looking up any distinct quoted pair returns its cross rate |
| CrossRates.RowsOfCount | exchange_rate/adapters.py:70-71 | a table yields one row per key, minus one when the base is among the keys |
| CrossRates.ParseCount | exchange_rate/adapters.py:66-78 | k tables, each with the same n distinct keys including its own base, yield k·(n−1) rows |
| CrossRates.DeriveCount | exchange_rate/adapters.py:104-105 | one fetch of N currencies yields N·(N−1) rows |
| RandomClient.RandInt | random_exchange/client.py:16 | the draw is reduced into the closed range `[lo, hi]`, and an in-range draw is kept as is |
| RandomClient.GetRandomExchange | random_exchange/client.py:8-25 | a self-pair gives 1.0 and touches nothing. Otherwise exactly one draw is used and the pair's baseline becomes the returned rate. A known pair gets its old rate times (1 + k/10000) with k in [−100, 100]. A new pair gets k/100 with k in [0, 10000], so the rate is between 0 and 100 |
| RandomClient.PerturbationBound | random_exchange/client.py:15-16 | a known non-negative baseline moves by at most 1 % per request |
| RandomClient.StepPreserves | random_exchange/client.py:8-25 | one request keeps every baseline non-negative, forgets no pair, and leaves a zero baseline at zero |
| RandomClient.ReplayKeeps | random_exchange/client.py:8-25 | a sequence of requests that never names a pair leaves that pair's last rate as it was |
| RandomClient.ReplayPreserves | random_exchange/client.py:8-25 | the same holds for any sequence of requests |
| Adapters.FindBase | exchange_rate/adapters.py:107-112 | the answer comes from the first re-based table whose base is the source: that table has the base, and no earlier table does. None exactly when no table has that base |
| Adapters.StoreValues | exchange_rate/adapters.py:80-89 | existing rows are kept in place and the new rows are appended after them. Every new row has distinct currencies and comes from some table: its base, its date, one of its keys at that key's rate. Every non-base key of every table has its row |
| Adapters.FixerGetExchangeRateData | exchange_rate/adapters.py:97-112 | a failed or unsuccessful fetch returns None and stores nothing. A successful fetch appends every derived row. It answers exactly when the source is quoted, with the target quote over the source quote |
| Adapters.FixerPersistsAllPairs | exchange_rate/adapters.py:104-105 | after a successful fetch, every unstored pair of distinct quoted currencies reads back its cross rate |
| CrossRates.DerivedHit | exchange_rate/adapters.py:66-78 | any lookup the derived rows answer is on the table's date, for two quoted currencies, at the target quote over the source quote |
| Adapters.FixerMissKeepsSource | exchange_rate/adapters.py:97-112 | a Fixer call for a source the service does not quote that day stores no row with that source, so every lookup from it is unchanged |
| Adapters.MockGetExchangeRateData | exchange_rate/adapters.py:123-126 | always answers and stores no rows. The rate, the new baselines and the new draw counter are exactly those of the random client's request for the pair; a self-pair answers 1.0; otherwise the rate is the client's new baseline for the pair |
| Adapters.GetExchangeRateData | exchange_rate/utils.py:8-14 | dispatch on the provider's adapter: the store only grows; an answer names the requested pair and date; Mock always answers; Fixer leaves the random client alone and answers exactly when the date is available and the source is quoted |
| Adapters.CallAppendsDerived | exchange_rate/adapters.py:97-126 | one adapter call appends only rows derived from the service's table for the requested day; a Mock call leaves the store as it was |
| Adapters.AnswerIgnoresStore | exchange_rate/utils.py:8-14 | an adapter's answer, and the baselines and draw counter it leaves, do not depend on the stored rows |
| Resolution.Walk | exchange_rate/utils.py:32-36 | None exactly when every provider in the list answers None, and then the random client is untouched. Otherwise the rate is that of the first provider that answers, and the random client's baselines and draw counter are exactly those that provider's call leaves. The store only grows (which rows it gains is `WalkAppendsDerived`) |
| Resolution.WalkAppendsDerived | exchange_rate/utils.py:32-36 | every row a walk appends is one of the rows derived from the service's table for the requested day; a synthetic provider appends none |
| Resolution.Resolve | exchange_rate/utils.py:17-36 | a self-pair gives 1.0 with no effects; a stored pair gives the first stored value with no effects; the store only grows, and every pair already stored keeps its value (which rows it gains is `ResolveAppendsDerived`) |
| Resolution.ResolveAppendsDerived | exchange_rate/utils.py:17-36 | every row resolution appends is one of the rows derived from the service's table for the requested day, so a fallback to a synthetic provider stores nothing of its own |
| Resolution.UnansweredIff | exchange_rate/utils.py:31-36 | every configured provider answers None exactly when all of them are Fixer providers and the service fails that day or does not quote the source |
| Resolution.ResolveNone | exchange_rate/utils.py:17-36 | resolution yields None exactly when the pair is distinct, misses the store, and no configured provider can answer for the source |
| Resolution.WalkKeepsSource | exchange_rate/utils.py:32-36 | a walk whose Fixer providers cannot quote the source stores no row from that source; Mock providers store nothing |
| Resolution.ResolveKeepsSource | exchange_rate/utils.py:17-36 | when no provider can answer for the source, resolving a pair from it leaves every lookup from that source unchanged |
| Resolution.LaterProvidersNotCalled | exchange_rate/utils.py:32-35 | providers after the first one that answers are never asked |
| Resolution.PriorityFallback | exchange_rate/utils.py:31-36 | on a store miss, the result is None exactly when every configured provider answers None |
| Resolution.PriorityWinner | exchange_rate/utils.py:31-35 | on a store miss, a resolved rate is the answer of some configured provider, the random client is left as that provider's call leaves it, and every provider of strictly lower priority number answered None |
| Resolution.MockAlwaysAnswers | exchange_rate/utils.py:31-35 | with a Mock provider configured, every request resolves to a rate |
| Resolution.ResolveStable | exchange_rate/utils.py:25-29 | once a distinct pair is stored, in any later state of the store it still reads the same value, and resolving it returns that value and changes nothing |
| Resolution.LiveProviderFirst | exchange_rate/utils.py:31 | when a given Fixer provider has a lower priority number than every Mock, a Fixer provider is asked first |
| Resolution.MockProviderFirst | exchange_rate/utils.py:31 | when a given Mock provider has a lower priority number than every Fixer, a Mock provider is asked first |
| Resolution.MockFirstResolve | exchange_rate/utils.py:31-35 | on a distinct store miss with a Mock provider ranked ahead of every Fixer, the rate is the random client's answer for the pair, the client's new baselines and draw counter are carried forward, and the store is unchanged |
| Resolution.MockAnsweredResolve | exchange_rate/utils.py:31-35 | on a distinct store miss that a Mock answers, because a Mock is ranked ahead of every Fixer or no Fixer can answer for the source that day, the rate, baselines and draw counter are those of the random client's request for the pair, and no lookup from the source changes |
| Resolution.LiveFirstResolve | exchange_rate/utils.py:31-35 | on a distinct store miss with a Fixer provider ranked ahead of every Mock, on a day the service quotes the source, the rate is the target quote over the source quote and every row derived from that day's table is appended to the store |
| Resolution.WarmUp | exchange_rate/utils.py:25-36 | when a Fixer provider is asked first and the service's response for day d is dated d, one cold lookup stores every pair quoted that day, so those pairs are then answered from the store with no provider call; a pair that was not stored before reads its cross rate |
| Operations.RatesOfDay | exchange_rate/utils.py:50-54 | the day's map has exactly the given currencies as keys; the source maps to 1.0; pairs stored at the start map to their stored value. An entry is None exactly when the pair is distinct, was not stored, and no configured provider can answer for the source. When no provider can answer for the source, every lookup from the source is unchanged |
| Operations.CurrencyRates | exchange_rate/utils.py:39-57 | one record per day of the inclusive range, in date order, each for the source and every registered currency; a pair already stored when the call starts reports its stored value; an entry is None only for a distinct, unstored pair when no configured provider can answer for the source that day |
| Operations.DayRecord | exchange_rate/utils.py:47-55 | one day's rates over the registered currencies form a record of that day (`IsRecordOf`): exactly the registered keys, 1.0 for the source, stored values for stored pairs, None only when no provider can answer for the source |
| Operations.LiveDayRates | exchange_rate/utils.py:50-53 | on a day the service quotes the source and every requested currency, with a Fixer provider ranked ahead of every Mock, each pair missing from the store at the start maps to the target quote over the source quote of that day's table, and no lookup for another date changes |
| Operations.ColdCalls | exchange_rate/utils.py:51-52 | the requests a day's resolution makes of the random client: one pair from the source to each currency, in order, that is not the source and misses the store, and every such currency has one |
| Operations.MockDayRates | exchange_rate/utils.py:50-53 | on a day a Mock answers every cold request from the source, the baselines and draw counter end exactly where replaying the cold requests in order leaves them, each cold entry is the random client's last rate for its pair, and no lookup from the source changes |
| Operations.LiveSeriesRates | exchange_rate/utils.py:47-55 | over days whose responses quote every registered currency and carry their own date, with a Fixer provider ranked ahead of every Mock, every record maps each pair missing from the store at the start to that day's cross rate (`LiveRecord`) |
| Operations.MockSeriesComplete | exchange_rate/utils.py:39-57 | with a Mock provider configured, every entry of every record of the series is a rate |
| Operations.ExchangedCurrencyAmount | exchange_rate/utils.py:60-67 | it fails with a TypeError exactly when no rate resolves. Otherwise the dict names the pair, the rate is the resolved one, and the exchanged amount is the amount times the rate, so dividing it by a non-zero rate gives back the amount. A self-pair converts at 1.0 with no effects |
| Operations.ConversionRoundTrip | exchange_rate/utils.py:60-67 | with both directions of a pair stored at rates whose product is 1 (as `CrossRates.Reciprocal` shows derived rates are), converting an amount and then converting the result back gives the original amount |
| Operations.ReturnFromRates | exchange_rate/utils.py:84-88 | None exactly when an endpoint rate is missing or zero. It fails with a ZeroDivisionError exactly when both rates are present and the amount is zero. Otherwise the return is the final rate over the initial rate, minus 1 |
| Operations.TimeWeightedRateReturn | exchange_rate/utils.py:70-92 | the start-date rate is resolved before today's rate, and the state threads through both. A self-pair returns 0 for a non-zero amount and fails with ZeroDivisionError for a zero amount, whatever the service returns |
| Operations.TimeSeriesCounts | api/tests.py:18-40 | a 7-day range yields 7 records and a 28-day range yields 28 |
| Operations.ReturnScenario | exchange_rate/utils.py:86-88 | rates 0.9 then 0.95 on an amount of 1.3 give a return of 1/18 |

## Left out

- Persistence is a sequence of rows in memory. The ORM, database
  transactions and the `Decimal` column with 6 decimal places are not
  modelled. Rates are exact reals, so rounding to 6 places before storage
  and `float(...)` on read are left out.
- `parse_currency` (`Currency.objects.get`) is assumed to succeed for every
  quoted symbol. The model has no `DoesNotExist` path.
- The HTTP call to fixer.io, the API key and the configured symbol list are
  left out. The service is a map from dates to responses. A missing date
  stands for any `FixerioException`.
- A Fixer response is required to be well formed, to quote no currency at
  zero, and to quote the target whenever it quotes the source
  (`Adapters.ServiceContract`). This is required only for a request that can
  reach a Fixer provider: a distinct pair that misses the store
  (`Resolution.LiveSafe`). Self-pairs, stored pairs and configurations
  without a Fixer provider need nothing. A response that breaks the contract
  makes the code raise `ZeroDivisionError` at adapters.py:49 or `KeyError`
  at adapters.py:111, and those exceptions are not modelled as values.
- A zero quote: derivation divides by the quote of every base, so a single
  zero quote raises for the whole batch. The model follows that code, which
  is why zero quotes are excluded by the contract above. It does not skip
  that one currency.
- Resolution.Resolve: the service contract is also required when a Mock
  provider is ranked ahead of every Fixer provider, although then the Fixer
  providers are never asked.
- Resolution.WarmUp: it assumes the service's response for day d is dated
  d. When the response carries another date, its rows are stored under that
  date, nothing is stored for d, and the lemma promises nothing.
- Operations.RatesOfDay: the value of an entry for a pair missing from the
  store is pinned by `Operations.LiveDayRates` (a Fixer ranked strictly first,
  and the day's table quotes every requested currency) and by
  `Operations.MockDayRates` (a Mock answers every cold request). It is not
  stated when a Fixer and a Mock share the lowest priority number and the
  service quotes the source: then the configuration order decides which is
  asked first, and both lemmas rank by strict priority. It is also not stated
  when the table quotes the source but not a currency that was already stored.
- Operations.DayRecord: `IsRecordOf` fixes stored and self entries and the
  None entries only; the rate of a cold entry is left to the lemmas named on
  the line above.
- Operations.CurrencyRates: a None entry implies that no provider could
  answer for the source that day. The converse is promised per day by
  `Operations.RatesOfDay` but not for the whole series, because a response
  for an earlier day may be dated with a later day and store its rows there.
  For the same reason the value of a pair that misses the store at the start
  is promised only under the hypotheses of `Operations.LiveDayRates` (one day)
  and `Operations.LiveSeriesRates` (every response dated its own day, and a
  Fixer provider asked first). With a Mock provider asked first the value is
  the random client's, as `Resolution.MockFirstResolve` states per pair.
- Provider adapters are chosen from a two-valued `Adapter` type rather than
  by `import_module` on a dotted class path. An unknown adapter string is
  not modelled.
- Python's `random.randint` is an injected stream of draws. Its
  distribution is not modelled.
- `pd.date_range` over date strings is an inclusive range of integer day
  numbers. Date formatting and parsing (`date_to_str`, `parse_date`) and
  `date.today()` are left out. "Today" is a parameter.
- Providers with equal priority are asked in configuration order. The
  database ordering of such ties is unspecified.
- Operations.ExchangedCurrencyAmount: a missing rate raises `TypeError` at
  `amount * None`. The model returns `Failure(TypeError)` and does not model
  the stack unwinding.
- Operations.TimeWeightedRateReturn: a missing endpoint rate returns `None`,
  as the code does, rather than raising a rate-unavailable error.
- Duplicate rows from repeated cold lookups are kept, as the bulk insert
  keeps them. Lookups return the first.
- The `unique=True` columns of the random client's initial migration are not
  modelled. The current model class has no uniqueness constraint.
- The request layer (`api/views.py`, `api/validators.py`, URL routing), the
  dashboard views, the admin site, the migrations and the test suite are
  outside the engine and not modelled.
- Concurrent requests are not modelled. Every operation is a single
  sequential step over the state.

=== FILE: adapters.dfy ===
/**
 * The provider adapters (`FixerAdapter`, `MockAdapter`) and the dispatch
 * from a provider to its adapter (`get_exchange_rate_data`). The live
 * service is a parameter: the response it gives for each day.
 */
module Adapters {
  import opened Wrappers
  import opened Models
  import opened RateStore
  import opened CrossRates
  import opened RandomClient

  /** What the live service answers for one historical date. */
  datatype Response = Response(success: bool, date: Day, rates: Dict)

  /** The live service: a day it has no entry for is one where the request raised. */
  type Backend = map<Day, Response>

  /** The mutable state the engine threads: persisted rates, synthetic baselines, draws used. */
  datatype State = State(store: seq<Row>, baselines: Baselines, tick: nat)

  /** What the engine runs against: the configured providers, the live service, the random draws, the registry. */
  datatype Env = Env(providers: seq<Provider>, backend: Backend, draws: Draws, registry: seq<Symbol>)

  /** The dict an adapter returns for one pair and date. */
  datatype RateData = RateData(source: Symbol, exchanged: Symbol, date: Day, rate: real)

  /** The service answered successfully on `d`. */
  predicate Available(backend: Backend, d: Day)
  {
    d in backend && backend[d].success
  }

  /**
   * What the live adapter needs of a successful response so that it does not
   * raise: no zero quote (every quote is divided by) and, when the source is
   * quoted, the target too (it is read from the source's table).
   */
  ghost predicate ServiceContract(backend: Backend, d: Day, s: Symbol, t: Symbol)
  {
    Available(backend, d) ==>
      var q := backend[d].rates;
      q.Valid() && q.NonZero() && (s in q.values ==> t in q.values)
  }

  /** The rate for `(s, t)` read from the first re-based table whose base is `s`. */
  function FindBase(ts: seq<Based>, s: Symbol, t: Symbol, d: Day): (r: Option<RateData>)
    requires forall i :: 0 <= i < |ts| && ts[i].base == s ==> t in ts[i].rates.values
    ensures r.None? <==> forall i :: 0 <= i < |ts| ==> ts[i].base != s
    ensures r.Some? ==>
      exists i :: 0 <= i < |ts| && ts[i].base == s && r == Some(RateData(s, t, d, ts[i].rates.values[t]))
        && (forall j :: 0 <= j < i ==> ts[j].base != s)
  {
    if ts == [] then None
    else if ts[0].base == s then Some(RateData(s, t, d, ts[0].rates.values[t]))
    else
      var r := FindBase(ts[1..], s, t, d);
      assert forall i :: 1 <= i < |ts| ==> ts[i] == ts[1..][i - 1];
      r
  }

  /** `store_values`: the rows of the re-based tables are appended after every existing row. */
  function StoreValues(store: seq<Row>, ts: seq<Based>): (r: seq<Row>)
    requires forall i, k :: 0 <= i < |ts| && k in ts[i].rates.keys ==> k in ts[i].rates.values
    ensures store <= r
    ensures forall row :: row in r[|store|..] ==> row.source != row.target
    ensures forall row :: row in r[|store|..] ==> exists i :: 0 <= i < |ts| && FromTable(row, ts[i])
    ensures forall i, k :: 0 <= i < |ts| && k in ts[i].rates.keys && k != ts[i].base ==>
      Row(ts[i].base, k, ts[i].date, ts[i].rates.values[k]) in r[|store|..]
  {
    var created := ParseExchangeRates(ts);
    forall i, k | 0 <= i < |ts| && k in ts[i].rates.keys && k != ts[i].base
      ensures Row(ts[i].base, k, ts[i].date, ts[i].rates.values[k]) in created
    {
      ParseCovers(ts, i, k);
    }
    forall row | row in created
      ensures exists i :: 0 <= i < |ts| && FromTable(row, ts[i])
    {
      ParseSound(ts, row);
    }
    assert (store + created)[|store|..] == created;
    store + created
  }

  /**
   * `FixerAdapter.get_exchange_rate_data`: nothing when the service fails;
   * otherwise every derived row is persisted and the requested pair is read
   * back from the source's re-based table.
   */
  function FixerGetExchangeRateData(backend: Backend, store: seq<Row>, s: Symbol, t: Symbol, d: Day)
    : (r: (Option<RateData>, seq<Row>))
    requires ServiceContract(backend, d, s, t)
    ensures !Available(backend, d) ==> r == (None, store)
    ensures Available(backend, d) ==>
      r.1 == store + Derive(backend[d].date, backend[d].rates)
    ensures r.0.Some? <==> Available(backend, d) && s in backend[d].rates.values
    ensures r.0.Some? ==>
      r.0.value == RateData(s, t, d, backend[d].rates.values[t] / backend[d].rates.values[s])
  {
    if !Available(backend, d) then (None, store)
    else
      var resp := backend[d];
      var tables := ConvertExchangeBase(resp.date, resp.rates);
      var found := FindBase(tables, s, t, d);
      (found, StoreValues(store, tables))
  }

  /** `MockAdapter.get_exchange_rate_data`: always answers, with the generator's rate. */
  function MockGetExchangeRateData(draws: Draws, st: State, s: Symbol, t: Symbol, d: Day): (r: (RateData, State))
    ensures r.0.source == s && r.0.exchanged == t && r.0.date == d
    ensures r.1.store == st.store
    ensures r.0.rate == GetRandomExchange(draws, st.tick, st.baselines, s, t).rate
    ensures r.1.baselines == GetRandomExchange(draws, st.tick, st.baselines, s, t).baselines
    ensures r.1.tick == GetRandomExchange(draws, st.tick, st.baselines, s, t).tick
    ensures s == t ==> r.0.rate == 1.0 && r.1 == st
    ensures s != t ==> (s, t) in r.1.baselines && r.0.rate == r.1.baselines[(s, t)]
  {
    var p := GetRandomExchange(draws, st.tick, st.baselines, s, t);
    (RateData(s, t, d, p.rate), State(st.store, p.baselines, p.tick))
  }

  /** `get_exchange_rate_data`: ask the provider's adapter. */
  function GetExchangeRateData(env: Env, st: State, p: Provider, s: Symbol, t: Symbol, d: Day): (r: (Option<RateData>, State))
    requires p.adapter.Fixer? ==> ServiceContract(env.backend, d, s, t)
    ensures st.store <= r.1.store
    ensures r.0.Some? ==> r.0.value.source == s && r.0.value.exchanged == t && r.0.value.date == d
    ensures p.adapter.Mock? ==> r.0.Some?
    ensures p.adapter.Fixer? ==> r.1.baselines == st.baselines && r.1.tick == st.tick
    ensures p.adapter.Fixer? ==> (r.0.Some? <==> Available(env.backend, d) && s in env.backend[d].rates.values)
  {
    match p.adapter
    case Fixer =>
      var (a, store) := FixerGetExchangeRateData(env.backend, st.store, s, t, d);
      (a, st.(store := store))
    case Mock =>
      var (a, st') := MockGetExchangeRateData(env.draws, st, s, t, d);
      (Some(a), st')
  }

  /**
   * An adapter's answer, and what it does to the synthetic baselines and
   * draws, depend on those baselines and draws, never on the persisted rows.
   */
  lemma AnswerIgnoresStore(env: Env, st: State, st': State, p: Provider, s: Symbol, t: Symbol, d: Day)
    requires p.adapter.Fixer? ==> ServiceContract(env.backend, d, s, t)
    requires st.baselines == st'.baselines && st.tick == st'.tick
    ensures GetExchangeRateData(env, st, p, s, t, d).0 == GetExchangeRateData(env, st', p, s, t, d).0
    ensures GetExchangeRateData(env, st, p, s, t, d).1.baselines == GetExchangeRateData(env, st', p, s, t, d).1.baselines
    ensures GetExchangeRateData(env, st, p, s, t, d).1.tick == GetExchangeRateData(env, st', p, s, t, d).1.tick
  {
  }

  /** Every row of `rows` is derived from the table the service answers for day `d`. */
  ghost predicate DerivedRows(env: Env, d: Day, rows: seq<Row>)
  {
    forall row :: row in rows ==>
      && Available(env.backend, d)
      && env.backend[d].rates.Valid() && env.backend[d].rates.NonZero()
      && row in Derive(env.backend[d].date, env.backend[d].rates)
  }

  /** One adapter call writes only rows derived from the service's table for the requested day; a synthetic one writes none. */
  lemma CallAppendsDerived(env: Env, st: State, p: Provider, s: Symbol, t: Symbol, d: Day)
    requires p.adapter.Fixer? ==> ServiceContract(env.backend, d, s, t)
    ensures DerivedRows(env, d, GetExchangeRateData(env, st, p, s, t, d).1.store[|st.store|..])
    ensures p.adapter.Mock? ==> GetExchangeRateData(env, st, p, s, t, d).1.store == st.store
  {
    var store' := GetExchangeRateData(env, st, p, s, t, d).1.store;
    if p.adapter.Fixer? && Available(env.backend, d) {
      assert store' == st.store + Derive(env.backend[d].date, env.backend[d].rates);
      assert store'[|st.store|..] == Derive(env.backend[d].date, env.backend[d].rates);
    } else {
      assert store'[|st.store|..] == [];
    }
  }

  /** Derived rows of the same day stay derived when put together. */
  lemma DerivedConcat(env: Env, d: Day, xs: seq<Row>, ys: seq<Row>)
    requires DerivedRows(env, d, xs) && DerivedRows(env, d, ys)
    ensures DerivedRows(env, d, xs + ys)
  {
  }

  /** The rows appended in two steps are those of the first step followed by those of the second. */
  lemma SuffixSplit<T>(a: seq<T>, b: seq<T>, c: seq<T>)
    requires a <= b <= c
    ensures c[|a|..] == b[|a|..] + c[|b|..]
  {
  }

  /**
   * A successful fetch persists every pair of distinct quoted currencies:
   * a pair that was not stored for the response's date now reads back its cross rate.
   */
  lemma FixerPersistsAllPairs(backend: Backend, store: seq<Row>, s: Symbol, t: Symbol, d: Day, a: Symbol, c: Symbol)
    requires ServiceContract(backend, d, s, t) && Available(backend, d)
    requires a in backend[d].rates.values && c in backend[d].rates.values && a != c
    requires Lookup(store, a, c, backend[d].date).None?
    ensures Lookup(FixerGetExchangeRateData(backend, store, s, t, d).1, a, c, backend[d].date) ==
      Some(backend[d].rates.values[c] / backend[d].rates.values[a])
  {
    var q := backend[d].rates;
    LookupAppend(store, Derive(backend[d].date, q), a, c, backend[d].date);
    DeriveLookup(backend[d].date, q, a, c);
  }

  /**
   * A fetch that cannot answer for `s` (the service failed, or `s` is not
   * quoted) adds no row whose source is `s`: every lookup from `s` is unchanged.
   */
  lemma FixerMissKeepsSource(backend: Backend, store: seq<Row>, s: Symbol, t: Symbol, d: Day, c: Symbol, day: Day)
    requires ServiceContract(backend, d, s, t)
    requires !(Available(backend, d) && s in backend[d].rates.values)
    ensures Lookup(FixerGetExchangeRateData(backend, store, s, t, d).1, s, c, day) == Lookup(store, s, c, day)
  {
    if Available(backend, d) {
      var rows := Derive(backend[d].date, backend[d].rates);
      DeriveRows(backend[d].date, backend[d].rates);
      assert forall i :: 0 <= i < |rows| ==> rows[i] in rows;
      LookupAppend(store, rows, s, c, day);
    }
  }
}

=== FILE: cross_rates.dfy ===
/**
 * Cross-rate derivation (`convert_exchange_base`, `parse_exchange_rates`):
 * one quote table against a single base becomes one re-based table per
 * quoted currency, and those tables become one persisted row per ordered
 * pair of distinct quoted currencies.
 */
module CrossRates {
  import opened Wrappers
  import opened Models
  import opened RateStore

  /** A Python dict from currency symbol to rate: its keys in insertion order and its contents. */
  datatype Dict = Dict(keys: seq<Symbol>, values: map<Symbol, real>)
  {
    /** Keys are distinct and are exactly the mapped symbols. */
    ghost predicate Valid()
    {
      && (forall i, j :: 0 <= i < j < |keys| ==> keys[i] != keys[j])
      && (forall c :: c in keys ==> c in values)
      && (forall c :: c in values ==> c in keys)
    }

    /** No quote is zero, so every quote can be divided by. */
    ghost predicate NonZero()
    {
      forall c :: c in values ==> values[c] != 0.0
    }
  }

  /** One re-based table: the units of each currency per unit of `base` on `date`. */
  datatype Based = Based(base: Symbol, date: Day, rates: Dict)

  /** The quote table `q` re-expressed against the quoted currency `b`. */
  function Rebase(q: Dict, date: Day, b: Symbol): (r: Based)
    requires q.Valid() && q.NonZero() && b in q.values
    ensures r.base == b && r.date == date && r.rates.keys == q.keys && r.rates.Valid()
    ensures forall c :: c in q.values ==> c in r.rates.values && r.rates.values[c] == q.values[c] / q.values[b]
  {
    var m := map c | c in q.values :: q.values[c] / q.values[b];
    Based(b, date, Dict(q.keys, m))
  }

  /** `convert_exchange_base`: one re-based table per quoted currency, in key order. */
  function ConvertExchangeBase(date: Day, q: Dict): (r: seq<Based>)
    requires q.Valid() && q.NonZero()
    ensures |r| == |q.keys|
    ensures forall i :: 0 <= i < |r| ==> r[i] == Rebase(q, date, q.keys[i])
    ensures forall i :: 0 <= i < |r| ==>
      r[i].base == q.keys[i] && r[i].date == date && r[i].rates.keys == q.keys
    ensures forall i, c :: 0 <= i < |r| && c in q.values ==>
      c in r[i].rates.values && r[i].rates.values[c] == q.values[c] / q.values[r[i].base]
  {
    seq(|q.keys|, i requires 0 <= i < |q.keys| => Rebase(q, date, q.keys[i]))
  }

  /** The rows of one re-based table for the keys `ks`, skipping its own base. */
  function RowsOf(b: Based, ks: seq<Symbol>): (r: seq<Row>)
    requires forall k :: k in ks ==> k in b.rates.values
    ensures forall row :: row in r ==>
      && row.source == b.base && row.target != b.base && row.target in ks
      && row.date == b.date && row.value == b.rates.values[row.target]
    ensures forall k :: k in ks && k != b.base ==> Row(b.base, k, b.date, b.rates.values[k]) in r
  {
    if ks == [] then []
    else
      var head := if ks[0] != b.base then [Row(b.base, ks[0], b.date, b.rates.values[ks[0]])] else [];
      head + RowsOf(b, ks[1..])
  }

  /** `parse_exchange_rates`: the rows of every re-based table, table by table. */
  function ParseExchangeRates(ts: seq<Based>): (r: seq<Row>)
    requires forall i, k :: 0 <= i < |ts| && k in ts[i].rates.keys ==> k in ts[i].rates.values
    ensures forall row :: row in r ==> row.source != row.target
  {
    if ts == [] then []
    else
      var rest := ParseExchangeRates(ts[1..]);
      assert forall i :: 1 <= i < |ts| ==> ts[i] == ts[1..][i - 1];
      RowsOf(ts[0], ts[0].rates.keys) + rest
  }

  /** Every parsed row comes from some table: its base, its date, one of its keys and that key's rate. */
  lemma {:induction false} ParseSound(ts: seq<Based>, row: Row)
    requires forall i, k :: 0 <= i < |ts| && k in ts[i].rates.keys ==> k in ts[i].rates.values
    requires row in ParseExchangeRates(ts)
    ensures exists i :: 0 <= i < |ts| && FromTable(row, ts[i])
  {
    if row in RowsOf(ts[0], ts[0].rates.keys) {
      assert FromTable(row, ts[0]);
    } else {
      ParseSound(ts[1..], row);
      var j :| 0 <= j < |ts[1..]| && FromTable(row, ts[1..][j]);
      assert FromTable(row, ts[j + 1]);
    }
  }

  /** `row` is the row of table `b` for one of its mapped keys. */
  ghost predicate FromTable(row: Row, b: Based)
  {
    && row.source == b.base && row.date == b.date
    && row.target in b.rates.values && row.value == b.rates.values[row.target]
  }

  /** Every key of every table other than its base has its row among the parsed rows. */
  lemma {:induction false} ParseCovers(ts: seq<Based>, i: int, k: Symbol)
    requires forall i, k :: 0 <= i < |ts| && k in ts[i].rates.keys ==> k in ts[i].rates.values
    requires 0 <= i < |ts| && k in ts[i].rates.keys && k != ts[i].base
    ensures Row(ts[i].base, k, ts[i].date, ts[i].rates.values[k]) in ParseExchangeRates(ts)
    decreases i
  {
    if i > 0 {
      ParseCovers(ts[1..], i - 1, k);
      assert ts[1..][i - 1] == ts[i];
    }
  }

  /** Every row a quote table yields once it is re-based and flattened. */
  function Derive(date: Day, q: Dict): seq<Row>
    requires q.Valid() && q.NonZero()
  {
    ParseExchangeRates(ConvertExchangeBase(date, q))
  }

  /** Each re-based table maps its own base to 1. */
  lemma RebasedSelf(date: Day, q: Dict, b: Symbol)
    requires q.Valid() && q.NonZero() && b in q.values
    ensures Rebase(q, date, b).rates.values[b] == 1.0
  {
    DivSelf(q.values[b]);
  }

  /** Going from `a` to `c` and back through the re-based tables is the identity. */
  lemma Reciprocal(date: Day, q: Dict, a: Symbol, c: Symbol)
    requires q.Valid() && q.NonZero() && a in q.values && c in q.values
    ensures Rebase(q, date, a).rates.values[c] * Rebase(q, date, c).rates.values[a] == 1.0
  {
    QuotientsCancel(q.values[a], q.values[c], Rebase(q, date, a).rates.values[c], Rebase(q, date, c).rates.values[a]);
  }

  /** Every re-based table is any other re-based table re-expressed against its base. */
  lemma Triangular(date: Day, q: Dict, a: Symbol, b: Symbol, c: Symbol)
    requires q.Valid() && q.NonZero() && a in q.values && b in q.values && c in q.values
    ensures Rebase(q, date, b).rates.values[c] == Rebase(q, date, a).rates.values[c] / Rebase(q, date, a).rates.values[b]
  {
    QuotientOfQuotients(q.values[a], q.values[b], q.values[c],
      Rebase(q, date, b).rates.values[c], Rebase(q, date, a).rates.values[c], Rebase(q, date, a).rates.values[b]);
  }

  lemma DivSelf(x: real)
    requires x != 0.0
    ensures x / x == 1.0
  {
  }

  lemma QuotientsCancel(x: real, y: real, u: real, v: real)
    requires x != 0.0 && y != 0.0 && u == y / x && v == x / y
    ensures u * v == 1.0
  {
  }

  lemma QuotientOfQuotients(x: real, y: real, z: real, w: real, u: real, v: real)
    requires x != 0.0 && y != 0.0 && w == z / y && u == z / x && v == y / x
    ensures w == u / v
  {
  }

  /** Every derived row is a cross rate of two distinct quoted currencies on the table's date. */
  lemma DeriveRows(date: Day, q: Dict)
    requires q.Valid() && q.NonZero()
    ensures forall row :: row in Derive(date, q) ==>
      && row.date == date && row.source != row.target
      && row.source in q.values && row.target in q.values
      && row.value == q.values[row.target] / q.values[row.source]
  {
    var ts := ConvertExchangeBase(date, q);
    forall row | row in Derive(date, q)
      ensures row.date == date && row.source in q.values && row.target in q.values
      ensures row.value == q.values[row.target] / q.values[row.source]
    {
      ParseSound(ts, row);
      var i :| 0 <= i < |ts| && FromTable(row, ts[i]);
      assert row.source == q.keys[i];
      assert row.target in ts[i].rates.keys;
    }
  }

  /** Every ordered pair of distinct quoted currencies has a derived row. */
  lemma DeriveCovers(date: Day, q: Dict, a: Symbol, c: Symbol)
    requires q.Valid() && q.NonZero()
    requires a in q.values && c in q.values && a != c
    ensures Row(a, c, date, q.values[c] / q.values[a]) in Derive(date, q)
  {
    var ts := ConvertExchangeBase(date, q);
    var i :| 0 <= i < |q.keys| && q.keys[i] == a;
    assert ts[i].base == a && c in ts[i].rates.keys;
    ParseCovers(ts, i, c);
  }

  /** Looking up a quoted pair among the derived rows yields its cross rate. */
  lemma DeriveLookup(date: Day, q: Dict, a: Symbol, c: Symbol)
    requires q.Valid() && q.NonZero()
    requires a in q.values && c in q.values && a != c
    ensures Lookup(Derive(date, q), a, c, date) == Some(q.values[c] / q.values[a])
  {
    var rows := Derive(date, q);
    DeriveRows(date, q);
    DeriveCovers(date, q, a, c);
    var k :| 0 <= k < |rows| && rows[k] == Row(a, c, date, q.values[c] / q.values[a]);
    assert rows[k].Matches(a, c, date);
    var r := Lookup(rows, a, c, date);
    assert r.Some?;
    var i :| 0 <= i < |rows| && rows[i].Matches(a, c, date) && rows[i].value == r.value;
    assert rows[i] in rows;
  }

  /** Whatever the derived rows answer is the cross rate of two quoted currencies on the table's date. */
  lemma DerivedHit(date: Day, q: Dict, a: Symbol, c: Symbol, day: Day)
    requires q.Valid() && q.NonZero()
    ensures Lookup(Derive(date, q), a, c, day).Some? ==>
      day == date && a in q.values && c in q.values && Lookup(Derive(date, q), a, c, day) == Some(q.values[c] / q.values[a])
  {
    var rows := Derive(date, q);
    var r := Lookup(rows, a, c, day);
    if r.Some? {
      DeriveRows(date, q);
      var i :| 0 <= i < |rows| && rows[i].Matches(a, c, day) && rows[i].value == r.value;
      assert rows[i] in rows;
    }
  }

  /** A table yields one row per key other than its base. */
  lemma {:induction false} RowsOfCount(b: Based, ks: seq<Symbol>)
    requires forall k :: k in ks ==> k in b.rates.values
    requires forall i, j :: 0 <= i < j < |ks| ==> ks[i] != ks[j]
    ensures |RowsOf(b, ks)| == if b.base in ks then |ks| - 1 else |ks|
  {
    if ks != [] {
      RowsOfCount(b, ks[1..]);
      assert b.base in ks <==> b.base == ks[0] || b.base in ks[1..];
      if b.base == ks[0] {
        assert b.base !in ks[1..];
      }
    }
  }

  /** `b` has `n` distinct keys, its own base among them. */
  ghost predicate Keyed(b: Based, n: nat)
  {
    && |b.rates.keys| == n && b.base in b.rates.keys
    && (forall j, l :: 0 <= j < l < n ==> b.rates.keys[j] != b.rates.keys[l])
  }

  /** Tables over the same `n` distinct keys, each containing its base, yield `n - 1` rows each. */
  lemma {:induction false} ParseCount(ts: seq<Based>, n: nat)
    requires forall i, k :: 0 <= i < |ts| && k in ts[i].rates.keys ==> k in ts[i].rates.values
    requires forall i :: 0 <= i < |ts| ==> Keyed(ts[i], n)
    ensures |ParseExchangeRates(ts)| == |ts| * (n - 1)
  {
    if ts != [] {
      assert Keyed(ts[0], n);
      RowsOfCount(ts[0], ts[0].rates.keys);
      ParseCount(ts[1..], n);
      MulSucc(|ts| - 1, n - 1);
    }
  }

  lemma MulSucc(k: nat, m: int)
    ensures (k + 1) * m == k * m + m
  {
  }

  /** A table quoting `N` currencies yields exactly `N * (N - 1)` rows. */
  lemma DeriveCount(date: Day, q: Dict)
    requires q.Valid() && q.NonZero()
    ensures |Derive(date, q)| == |q.keys| * (|q.keys| - 1)
  {
    var ts := ConvertExchangeBase(date, q);
    forall i | 0 <= i < |ts|
      ensures Keyed(ts[i], |q.keys|)
    {
      assert ts[i].base == ts[i].rates.keys[i];
    }
    ParseCount(ts, |q.keys|);
  }
}

=== FILE: models.dfy ===
/**
 * The persistent entities of the rate engine: persisted exchange rates and
 * the providers that can be asked for them, together with the ordering the
 * engine imposes on providers (`order_by('priority')`).
 */
module Models {

  /** A registered currency, identified by its symbol ("EUR"). */
  type Symbol = string

  /** A calendar date, as a day number. */
  type Day = int

  /** One persisted `CurrencyExchangeRate`: units of `target` per unit of `source` on `date`. */
  datatype Row = Row(source: Symbol, target: Symbol, date: Day, value: real)
  {
    /** The row answers the store query for this pair and date. */
    predicate Matches(s: Symbol, t: Symbol, d: Day)
    {
      source == s && target == t && date == d
    }
  }

  /** The closed set of adapter implementations a provider can name. */
  datatype Adapter = Fixer | Mock

  /** A configured rate provider; lower `priority` is consulted first. */
  datatype Provider = Provider(name: string, priority: int, adapter: Adapter)

  ghost predicate SortedByPriority(ps: seq<Provider>)
  {
    forall i, j :: 0 <= i < j < |ps| ==> ps[i].priority <= ps[j].priority
  }

  /** Inserts `p` in front of the first provider whose priority is not lower. */
  function Insert(p: Provider, ps: seq<Provider>): (r: seq<Provider>)
    requires SortedByPriority(ps)
    ensures SortedByPriority(r)
    ensures multiset(r) == multiset(ps) + multiset{p}
  {
    if ps == [] || p.priority <= ps[0].priority then
      [p] + ps
    else
      var rest := Insert(p, ps[1..]);
      InsertBehind(p, ps, rest);
      [ps[0]] + rest
  }

  /** Putting the head of `ps` in front of the insertion into its tail keeps the order. */
  lemma InsertBehind(p: Provider, ps: seq<Provider>, rest: seq<Provider>)
    requires SortedByPriority(ps) && ps != [] && ps[0].priority < p.priority
    requires SortedByPriority(rest) && multiset(rest) == multiset(ps[1..]) + multiset{p}
    ensures SortedByPriority([ps[0]] + rest)
    ensures multiset([ps[0]] + rest) == multiset(ps) + multiset{p}
  {
    assert ps == [ps[0]] + ps[1..];
    forall k | 0 <= k < |rest|
      ensures ps[0].priority <= rest[k].priority
    {
      assert rest[k] in multiset(rest);
      if rest[k] != p {
        assert rest[k] in multiset(ps[1..]);
        var m :| 0 <= m < |ps[1..]| && ps[1..][m] == rest[k];
        assert ps[m + 1] == rest[k];
      }
    }
    var r := [ps[0]] + rest;
    forall i, j | 0 <= i < j < |r|
      ensures r[i].priority <= r[j].priority
    {
      if i > 0 {
        assert r[i] == rest[i - 1] && r[j] == rest[j - 1];
      } else {
        assert r[j] == rest[j - 1];
      }
    }
  }

  /**
   * The providers in the order the engine consults them: ascending priority,
   * providers of equal priority kept in registration order.
   */
  function SortByPriority(ps: seq<Provider>): (r: seq<Provider>)
    ensures SortedByPriority(r)
    ensures multiset(r) == multiset(ps)
  {
    if ps == [] then []
    else
      assert ps == [ps[0]] + ps[1..];
      Insert(ps[0], SortByPriority(ps[1..]))
  }
}

=== FILE: operations.dfy ===
/**
 * The operations built on resolution: a day-by-day time series
 * (`get_currency_rates`), spot conversion (`get_exchanged_currency_amount`)
 * and a single-period time-weighted return (`get_time_weighted_rate_return`).
 */
module Operations {
  import opened Wrappers
  import opened Models
  import opened RateStore
  import opened CrossRates
  import opened RandomClient
  import opened Adapters
  import opened Resolution

  /** The exceptions the source lets escape from these operations. */
  datatype PyError = TypeError | ZeroDivisionError

  /** One record of the time series: the rate from `source` to each registered currency on `date`. */
  datatype DailyRates = DailyRates(source: Symbol, date: Day, rates: map<Symbol, Option<real>>)

  /**
   * The rates from `s` to each of `cs` on day `d`, resolved in order; a later
   * duplicate overwrites. Only pairs that miss the store at the start can
   * reach the live service, so only they need it to behave.
   */
  function RatesOfDay(env: Env, st: State, s: Symbol, cs: seq<Symbol>, d: Day): (r: (map<Symbol, Option<real>>, State))
    requires forall c :: c in cs && c != s && Lookup(st.store, s, c, d).None? ==> LiveSafe(env, env.providers, s, c, d)
    ensures Grows(st, r.1)
    ensures forall c :: c in r.0 <==> c in cs
    ensures s in cs ==> r.0[s] == Some(1.0)
    ensures forall c :: c in cs && c != s && Lookup(st.store, s, c, d).Some? ==> r.0[c] == Lookup(st.store, s, c, d)
    ensures forall c :: c in cs && r.0[c].None? ==> c != s && Lookup(st.store, s, c, d).None? && Unanswered(env, s, d)
    ensures Unanswered(env, s, d) ==>
      forall c :: c in cs && c != s && Lookup(st.store, s, c, d).None? ==> r.0[c].None?
    ensures Unanswered(env, s, d) ==>
      forall c, day :: Lookup(r.1.store, s, c, day) == Lookup(st.store, s, c, day)
    decreases |cs|
  {
    if cs == [] then (map[], st)
    else
      var (v, st1) := Resolve(env, st, s, cs[0], d);
      var (m, st2) := RatesOfDay(env, st1, s, cs[1..], d);
      RatesConsFound(env, st, st1, s, cs, d, v, m);
      RatesConsMissing(env, st, st1, st2, s, cs, d, v, m);
      (map[cs[0] := v] + m, st2)
  }

  /** One step of `RatesOfDay`, for the pairs that get a rate: the head's resolution and the tail's rates make the whole day's. */
  lemma RatesConsFound(env: Env, st: State, st1: State, s: Symbol, cs: seq<Symbol>, d: Day,
                       v: Option<real>, m: map<Symbol, Option<real>>)
    requires |cs| > 0
    requires cs[0] != s && Lookup(st.store, s, cs[0], d).None? ==> LiveSafe(env, env.providers, s, cs[0], d)
    requires Resolve(env, st, s, cs[0], d) == (v, st1)
    requires forall c :: c in m <==> c in cs[1..]
    requires s in cs[1..] ==> m[s] == Some(1.0)
    requires forall c :: c in cs[1..] && c != s && Lookup(st1.store, s, c, d).Some? ==> m[c] == Lookup(st1.store, s, c, d)
    ensures forall c :: c in map[cs[0] := v] + m <==> c in cs
    ensures s in cs ==> (map[cs[0] := v] + m)[s] == Some(1.0)
    ensures forall c :: c in cs && c != s && Lookup(st.store, s, c, d).Some? ==>
      (map[cs[0] := v] + m)[c] == Lookup(st.store, s, c, d)
  {
    var out := map[cs[0] := v] + m;
    assert forall c :: c in cs <==> c == cs[0] || c in cs[1..] by {
      assert cs == [cs[0]] + cs[1..];
    }
    forall c | c in cs && c != s && Lookup(st.store, s, c, d).Some?
      ensures out[c] == Lookup(st.store, s, c, d)
    {
      if c in cs[1..] {
        assert Lookup(st1.store, s, c, d) == Lookup(st.store, s, c, d);
      }
    }
  }

  /** One step of `RatesOfDay`, for the pairs left without a rate. */
  lemma RatesConsMissing(env: Env, st: State, st1: State, st2: State, s: Symbol, cs: seq<Symbol>, d: Day,
                         v: Option<real>, m: map<Symbol, Option<real>>)
    requires |cs| > 0
    requires cs[0] != s && Lookup(st.store, s, cs[0], d).None? ==> LiveSafe(env, env.providers, s, cs[0], d)
    requires Resolve(env, st, s, cs[0], d) == (v, st1)
    requires forall c :: c in m <==> c in cs[1..]
    requires forall c :: c in cs[1..] && m[c].None? ==> c != s && Lookup(st1.store, s, c, d).None? && Unanswered(env, s, d)
    requires Unanswered(env, s, d) ==>
      forall c :: c in cs[1..] && c != s && Lookup(st1.store, s, c, d).None? ==> m[c].None?
    requires Unanswered(env, s, d) ==>
      forall c, day :: Lookup(st2.store, s, c, day) == Lookup(st1.store, s, c, day)
    ensures forall c :: c in map[cs[0] := v] + m <==> c in cs
    ensures forall c :: c in cs && (map[cs[0] := v] + m)[c].None? ==>
      c != s && Lookup(st.store, s, c, d).None? && Unanswered(env, s, d)
    ensures Unanswered(env, s, d) ==>
      forall c :: c in cs && c != s && Lookup(st.store, s, c, d).None? ==> (map[cs[0] := v] + m)[c].None?
    ensures Unanswered(env, s, d) ==>
      forall c, day :: Lookup(st2.store, s, c, day) == Lookup(st.store, s, c, day)
  {
    ResolveNone(env, st, s, cs[0], d);
    if Unanswered(env, s, d) {
      ResolveKeepsSource(env, st, s, cs[0], d);
    }
    assert forall c :: c in cs <==> c == cs[0] || c in cs[1..] by {
      assert cs == [cs[0]] + cs[1..];
    }
  }

  /**
   * `rec` is a record of rates from `s` consistent with `store`: it has an
   * entry for exactly the registered currencies, maps `s` to 1, reports every
   * pair already stored in `store` for its date with the stored value, and has
   * no rate only for a pair missing from `store` when no provider can answer
   * for `s`. The rate of a pair missing from `store` is `LiveRecord`'s concern.
   */
  ghost predicate IsRecordOf(env: Env, store: seq<Row>, s: Symbol, rec: DailyRates)
  {
    && rec.source == s
    && (forall c :: c in rec.rates <==> c in env.registry)
    && (s in env.registry ==> rec.rates[s] == Some(1.0))
    && (forall c :: c in env.registry && c != s && Lookup(store, s, c, rec.date).Some? ==>
          rec.rates[c] == Lookup(store, s, c, rec.date))
    && (forall c :: c in env.registry && rec.rates[c].None? ==>
          c != s && Lookup(store, s, c, rec.date).None? && Unanswered(env, s, rec.date))
  }

  /** A record consistent with a longer store is consistent with any prefix of it. */
  lemma RecordOfPrefix(env: Env, store: seq<Row>, store': seq<Row>, s: Symbol, rec: DailyRates)
    requires store <= store' && IsRecordOf(env, store', s, rec)
    ensures IsRecordOf(env, store, s, rec)
  {
    forall c | c in env.registry && c != s && Lookup(store, s, c, rec.date).Some?
      ensures rec.rates[c] == Lookup(store, s, c, rec.date)
    {
      LookupPrefix(store, store', s, c, rec.date);
    }
  }

  /**
   * A consistent record for day `start`, followed by consecutive records
   * consistent with a longer store, makes consecutive records consistent with
   * the shorter one.
   */
  lemma ConsRecord(env: Env, store: seq<Row>, store': seq<Row>, s: Symbol, start: Day,
                   head: DailyRates, rest: seq<DailyRates>)
    requires store <= store'
    requires head.date == start && IsRecordOf(env, store, s, head)
    requires forall i :: 0 <= i < |rest| ==> rest[i].date == start + 1 + i
    requires forall i :: 0 <= i < |rest| ==> IsRecordOf(env, store', s, rest[i])
    ensures forall i :: 0 <= i < |[head] + rest| ==> ([head] + rest)[i].date == start + i
    ensures forall i :: 0 <= i < |[head] + rest| ==> IsRecordOf(env, store, s, ([head] + rest)[i])
  {
    var records := [head] + rest;
    assert forall i :: 0 < i < |records| ==> records[i] == rest[i - 1];
    forall i | 0 < i < |records|
      ensures IsRecordOf(env, store, s, records[i])
    {
      RecordOfPrefix(env, store, store', s, rest[i - 1]);
    }
  }

  /** `get_currency_rates`: one record per day of `[start, end]`, in order. */
  function CurrencyRates(env: Env, st: State, s: Symbol, start: Day, end: Day): (r: (seq<DailyRates>, State))
    requires forall d, c :: start <= d <= end && c in env.registry && c != s && Lookup(st.store, s, c, d).None? ==>
      LiveSafe(env, env.providers, s, c, d)
    ensures Grows(st, r.1)
    ensures |r.0| == if start <= end then end - start + 1 else 0
    ensures forall i :: 0 <= i < |r.0| ==> r.0[i].date == start + i
    ensures forall i :: 0 <= i < |r.0| ==> IsRecordOf(env, st.store, s, r.0[i])
    decreases end - start
  {
    if start > end then ([], st)
    else
      var (m, st1) := RatesOfDay(env, st, s, env.registry, start);
      DayRecord(env, st, s, start);
      SafeAfter(env, st.store, st1.store, s, start + 1, end);
      var (rest, st2) := CurrencyRates(env, st1, s, start + 1, end);
      ConsRecord(env, st.store, st1.store, s, start, DailyRates(s, start, m), rest);
      ([DailyRates(s, start, m)] + rest, st2)
  }

  /** What the series demands of the service for the days left only shrinks as the store grows. */
  lemma SafeAfter(env: Env, store: seq<Row>, store': seq<Row>, s: Symbol, start: Day, end: Day)
    requires store <= store'
    requires forall d, c :: start <= d <= end && c in env.registry && c != s && Lookup(store, s, c, d).None? ==>
      LiveSafe(env, env.providers, s, c, d)
    ensures forall d, c :: start <= d <= end && c in env.registry && c != s && Lookup(store', s, c, d).None? ==>
      LiveSafe(env, env.providers, s, c, d)
  {
    forall d, c | start <= d <= end && c in env.registry && c != s && Lookup(store', s, c, d).None?
      ensures Lookup(store, s, c, d).None?
    {
      LookupMissPrefix(store, store', s, c, d);
    }
  }

  /** The rates of one day, resolved for every registered currency, form a record consistent with the store. */
  lemma DayRecord(env: Env, st: State, s: Symbol, d: Day)
    requires forall c :: c in env.registry && c != s && Lookup(st.store, s, c, d).None? ==> LiveSafe(env, env.providers, s, c, d)
    ensures IsRecordOf(env, st.store, s, DailyRates(s, d, RatesOfDay(env, st, s, env.registry, d).0))
  {
  }

  /** With a synthetic provider configured, every entry of every record of the series is a rate. */
  lemma MockSeriesComplete(env: Env, st: State, s: Symbol, start: Day, end: Day, m: Provider)
    requires forall d, c :: start <= d <= end && c in env.registry && c != s && Lookup(st.store, s, c, d).None? ==>
      LiveSafe(env, env.providers, s, c, d)
    requires m in env.providers && m.adapter.Mock?
    ensures forall i, c :: 0 <= i < |CurrencyRates(env, st, s, start, end).0| && c in env.registry ==>
      CurrencyRates(env, st, s, start, end).0[i].rates[c].Some?
  {
    var recs := CurrencyRates(env, st, s, start, end).0;
    forall i, c | 0 <= i < |recs| && c in env.registry
      ensures recs[i].rates[c].Some?
    {
      assert IsRecordOf(env, st.store, s, recs[i]);
      assert !Unanswered(env, s, recs[i].date);
    }
  }

  /** The service answers day `d` with a well-formed table quoting `s` and every currency of `cs`. */
  ghost predicate Quotes(env: Env, d: Day, s: Symbol, cs: seq<Symbol>)
  {
    && Available(env.backend, d)
    && env.backend[d].rates.Valid() && env.backend[d].rates.NonZero()
    && s in env.backend[d].rates.values
    && forall c :: c in cs ==> c in env.backend[d].rates.values
  }

  /**
   * On a day the service quotes every currency asked for, with a live provider
   * ranked ahead of every synthetic one, each pair missing from the store at
   * the start gets the cross rate of that day's table, and no lookup for
   * another date than the table's changes.
   */
  lemma {:induction false} LiveDayRates(env: Env, st: State, s: Symbol, cs: seq<Symbol>, d: Day, f: Provider)
    requires LiveOutranks(env.providers, f)
    requires Quotes(env, d, s, cs)
    ensures forall c :: c in cs && c != s && Lookup(st.store, s, c, d).None? ==> LiveSafe(env, env.providers, s, c, d)
    ensures forall c :: c in cs && c != s && Lookup(st.store, s, c, d).None? ==>
      RatesOfDay(env, st, s, cs, d).0[c] == Some(env.backend[d].rates.values[c] / env.backend[d].rates.values[s])
    ensures forall a, c, day :: day != env.backend[d].date ==>
      Lookup(RatesOfDay(env, st, s, cs, d).1.store, a, c, day) == Lookup(st.store, a, c, day)
    decreases |cs|
  {
    assert forall c :: c in cs ==> ServiceContract(env.backend, d, s, c);
    if cs != [] {
      var (v, st1) := Resolve(env, st, s, cs[0], d);
      var extra := LiveResolveStep(env, st, s, cs[0], d, f);
      AppendLookups(st.store, extra, env.backend[d].date, env.backend[d].rates);
      assert Quotes(env, d, s, cs[1..]) by {
        assert forall c :: c in cs[1..] ==> c in cs;
      }
      LiveDayRates(env, st1, s, cs[1..], d, f);
      var (m, st2) := RatesOfDay(env, st1, s, cs[1..], d);
      assert forall c :: c in cs ==> c in env.backend[d].rates.values;
      LiveDayHead(env, st, st1, s, cs, d, v, m, extra);
    }
  }

  /**
   * Resolving one pair on such a day: a cold pair gets the cross rate and
   * appends the table's rows (`extra`); any other pair appends nothing.
   */
  lemma LiveResolveStep(env: Env, st: State, s: Symbol, c: Symbol, d: Day, f: Provider) returns (extra: seq<Row>)
    requires LiveOutranks(env.providers, f)
    requires Quotes(env, d, s, [c])
    ensures c != s && Lookup(st.store, s, c, d).None? ==> LiveSafe(env, env.providers, s, c, d)
    ensures extra == [] || extra == Derive(env.backend[d].date, env.backend[d].rates)
    ensures Resolve(env, st, s, c, d).1.store == st.store + extra
    ensures c != s && Lookup(st.store, s, c, d).None? ==>
      Resolve(env, st, s, c, d).0 == Some(env.backend[d].rates.values[c] / env.backend[d].rates.values[s])
  {
    assert c in [c];
    if c != s && Lookup(st.store, s, c, d).None? {
      LiveFirstResolve(env, st, s, c, d, f);
      extra := Derive(env.backend[d].date, env.backend[d].rates);
    } else {
      extra := [];
      assert st.store + extra == st.store;
    }
  }

  /** Appending no rows, or a table's derived rows, only adds cross rates dated with the table's date. */
  lemma AppendLookups(store: seq<Row>, extra: seq<Row>, date: Day, q: Dict)
    requires q.Valid() && q.NonZero()
    requires extra == [] || extra == Derive(date, q)
    ensures forall a, c, day ::
      Lookup(store + extra, a, c, day) ==
        (if Lookup(store, a, c, day).Some? then Lookup(store, a, c, day) else Lookup(extra, a, c, day))
    ensures forall a, c, day :: Lookup(extra, a, c, day).Some? ==>
      day == date && a in q.values && c in q.values && Lookup(extra, a, c, day) == Some(q.values[c] / q.values[a])
  {
    forall a, c, day
      ensures Lookup(store + extra, a, c, day) ==
        (if Lookup(store, a, c, day).Some? then Lookup(store, a, c, day) else Lookup(extra, a, c, day))
      ensures Lookup(extra, a, c, day).Some? ==>
        day == date && a in q.values && c in q.values && Lookup(extra, a, c, day) == Some(q.values[c] / q.values[a])
    {
      LookupAppend(store, extra, a, c, day);
      if extra != [] {
        DerivedHit(date, q, a, c, day);
      }
    }
  }

  /** One step of `LiveDayRates`: the head's rate and the tail's rates give every cold pair its cross rate. */
  lemma LiveDayHead(env: Env, st: State, st1: State, s: Symbol, cs: seq<Symbol>, d: Day,
                    v: Option<real>, m: map<Symbol, Option<real>>, extra: seq<Row>)
    requires |cs| > 0 && Quotes(env, d, s, cs)
    requires cs[0] != s && Lookup(st.store, s, cs[0], d).None? ==>
      v == Some(env.backend[d].rates.values[cs[0]] / env.backend[d].rates.values[s])
    requires forall c :: c in m <==> c in cs[1..]
    requires forall c :: c in cs[1..] && c != s && Lookup(st1.store, s, c, d).None? ==>
      m[c] == Some(env.backend[d].rates.values[c] / env.backend[d].rates.values[s])
    requires forall c :: c in cs[1..] && c != s && Lookup(st1.store, s, c, d).Some? ==> m[c] == Lookup(st1.store, s, c, d)
    requires forall c :: Lookup(st.store, s, c, d).None? ==> Lookup(st1.store, s, c, d) == Lookup(extra, s, c, d)
    requires forall c :: c in cs && Lookup(extra, s, c, d).Some? ==>
      Lookup(extra, s, c, d) == Some(env.backend[d].rates.values[c] / env.backend[d].rates.values[s])
    ensures forall c :: c in cs && c != s && Lookup(st.store, s, c, d).None? ==>
      (map[cs[0] := v] + m)[c] == Some(env.backend[d].rates.values[c] / env.backend[d].rates.values[s])
  {
    forall c | c in cs && c != s && Lookup(st.store, s, c, d).None?
      ensures (map[cs[0] := v] + m)[c] == Some(env.backend[d].rates.values[c] / env.backend[d].rates.values[s])
    {
      if c in cs[1..] {
        assert (map[cs[0] := v] + m)[c] == m[c];
      } else {
        var k :| 0 <= k < |cs| && cs[k] == c;
        if k > 0 {
          assert cs[1..][k - 1] == c;
        }
      }
    }
  }

  /**
   * `rec` gives every registered currency missing from `store` for its date
   * the cross rate of the table the service answers for that date.
   */
  ghost predicate LiveRecord(env: Env, store: seq<Row>, s: Symbol, rec: DailyRates)
  {
    && Quotes(env, rec.date, s, env.registry)
    && forall c :: c in env.registry && c != s && Lookup(store, s, c, rec.date).None? ==>
      c in rec.rates && rec.rates[c] == Some(env.backend[rec.date].rates.values[c] / env.backend[rec.date].rates.values[s])
  }

  /**
   * Over days whose responses quote every registered currency and carry their
   * own date, with a live provider ranked ahead of every synthetic one, each
   * record gives every pair missing from the store at the start the cross
   * rate of its day's table.
   */
  lemma {:induction false} LiveSeriesRates(env: Env, st: State, s: Symbol, start: Day, end: Day, f: Provider)
    requires LiveOutranks(env.providers, f)
    requires forall d :: start <= d <= end ==> Quotes(env, d, s, env.registry) && env.backend[d].date == d
    ensures forall d, c :: start <= d <= end && c in env.registry && c != s && Lookup(st.store, s, c, d).None? ==>
      LiveSafe(env, env.providers, s, c, d)
    ensures forall i :: 0 <= i < |CurrencyRates(env, st, s, start, end).0| ==>
      LiveRecord(env, st.store, s, CurrencyRates(env, st, s, start, end).0[i])
    decreases end - start
  {
    assert forall d, c :: start <= d <= end && c in env.registry ==> ServiceContract(env.backend, d, s, c);
    if start <= end {
      var (m, st1) := RatesOfDay(env, st, s, env.registry, start);
      LiveDayRates(env, st, s, env.registry, start, f);
      LiveSeriesRates(env, st1, s, start + 1, end, f);
      var (rest, st2) := CurrencyRates(env, st1, s, start + 1, end);
      LiveCons(env, st.store, st1.store, s, start, DailyRates(s, start, m), rest);
    }
  }

  /**
   * A live record for day `start`, followed by records live with respect to
   * a store that differs only on day `start`, are all live with respect to
   * the earlier store.
   */
  lemma LiveCons(env: Env, store: seq<Row>, store': seq<Row>, s: Symbol, start: Day,
                 head: DailyRates, rest: seq<DailyRates>)
    requires head.date == start && LiveRecord(env, store, s, head)
    requires forall i :: 0 <= i < |rest| ==> rest[i].date == start + 1 + i
    requires forall i :: 0 <= i < |rest| ==> LiveRecord(env, store', s, rest[i])
    requires forall a, c, day :: day != start ==> Lookup(store', a, c, day) == Lookup(store, a, c, day)
    ensures forall i :: 0 <= i < |[head] + rest| ==> LiveRecord(env, store, s, ([head] + rest)[i])
  {
    var records := [head] + rest;
    assert forall i :: 0 < i < |records| ==> records[i] == rest[i - 1];
    forall i | 0 < i < |records|
      ensures LiveRecord(env, store, s, records[i])
    {
      assert LiveRecord(env, store', s, rest[i - 1]);
    }
  }

  /**
   * The random-client requests a day's resolution makes when a synthetic
   * provider answers: `(s, c)` for each currency `c` of `cs`, in order, that
   * is not `s` and misses `store` for `d`.
   */
  function ColdCalls(store: seq<Row>, s: Symbol, cs: seq<Symbol>, d: Day): (r: seq<(Symbol, Symbol)>)
    ensures forall k :: 0 <= k < |r| ==> r[k].0 == s && r[k].1 in cs && r[k].1 != s && Lookup(store, s, r[k].1, d).None?
    ensures forall c :: c in cs && c != s && Lookup(store, s, c, d).None? ==> (s, c) in r
    decreases |cs|
  {
    if cs == [] then []
    else
      var rest := ColdCalls(store, s, cs[1..], d);
      assert forall k :: 0 <= k < |rest| ==> rest[k].1 in cs;
      assert forall c :: c in cs ==> c == cs[0] || c in cs[1..];
      if cs[0] != s && Lookup(store, s, cs[0], d).None? then [(s, cs[0])] + rest else rest
  }

  /** Two stores that agree on every lookup from `s` on day `d` ask for the same requests. */
  lemma {:induction false} ColdCallsSame(store: seq<Row>, store': seq<Row>, s: Symbol, cs: seq<Symbol>, d: Day)
    requires forall c :: Lookup(store', s, c, d) == Lookup(store, s, c, d)
    ensures ColdCalls(store', s, cs, d) == ColdCalls(store, s, cs, d)
    decreases |cs|
  {
    if cs != [] {
      ColdCallsSame(store, store', s, cs[1..], d);
    }
  }

  /**
   * On a day a synthetic provider answers every cold request from `s`, the
   * day's resolution asks the random client for exactly the cold pairs, in
   * order: the baselines and draw count end where replaying those requests
   * leaves them, every cold entry is the client's last rate for its pair,
   * and no lookup from `s` changes.
   */
  lemma {:induction false} MockDayRates(env: Env, st: State, s: Symbol, cs: seq<Symbol>, d: Day)
    requires forall c :: c in cs && c != s && Lookup(st.store, s, c, d).None? ==> LiveSafe(env, env.providers, s, c, d)
    requires MockAnswers(env, s, d)
    ensures forall c, day :: Lookup(RatesOfDay(env, st, s, cs, d).1.store, s, c, day) == Lookup(st.store, s, c, day)
    ensures RatesOfDay(env, st, s, cs, d).1.baselines == Replay(env.draws, st.tick, st.baselines, ColdCalls(st.store, s, cs, d)).0
    ensures RatesOfDay(env, st, s, cs, d).1.tick == Replay(env.draws, st.tick, st.baselines, ColdCalls(st.store, s, cs, d)).1
    ensures forall c :: c in cs && c != s && Lookup(st.store, s, c, d).None? ==>
      && (s, c) in RatesOfDay(env, st, s, cs, d).1.baselines
      && RatesOfDay(env, st, s, cs, d).0[c] == Some(RatesOfDay(env, st, s, cs, d).1.baselines[(s, c)])
    decreases |cs|
  {
    if cs != [] {
      var (v, st1) := Resolve(env, st, s, cs[0], d);
      var cold := cs[0] != s && Lookup(st.store, s, cs[0], d).None?;
      if cold {
        MockAnsweredResolve(env, st, s, cs[0], d);
      }
      assert forall c, day :: Lookup(st1.store, s, c, day) == Lookup(st.store, s, c, day);
      ColdCallsSame(st.store, st1.store, s, cs[1..], d);
      assert forall c :: c in cs[1..] ==> c in cs;
      MockDayRates(env, st1, s, cs[1..], d);
      var (m, st2) := RatesOfDay(env, st1, s, cs[1..], d);
      var rest := ColdCalls(st.store, s, cs[1..], d);
      MockDayStep(env, st, st1, st2, s, cs, d, v, m, rest);
    }
  }

  /** One step of `MockDayRates`: the head's request followed by the tail's requests. */
  lemma MockDayStep(env: Env, st: State, st1: State, st2: State, s: Symbol, cs: seq<Symbol>, d: Day,
                    v: Option<real>, m: map<Symbol, Option<real>>, rest: seq<(Symbol, Symbol)>)
    requires |cs| > 0 && rest == ColdCalls(st.store, s, cs[1..], d)
    requires cs[0] != s && Lookup(st.store, s, cs[0], d).None? ==>
      && v == Some(GetRandomExchange(env.draws, st.tick, st.baselines, s, cs[0]).rate)
      && st1.baselines == GetRandomExchange(env.draws, st.tick, st.baselines, s, cs[0]).baselines
      && st1.tick == GetRandomExchange(env.draws, st.tick, st.baselines, s, cs[0]).tick
    requires !(cs[0] != s && Lookup(st.store, s, cs[0], d).None?) ==> st1 == st
    requires forall c :: Lookup(st1.store, s, c, d) == Lookup(st.store, s, c, d)
    requires forall c :: c in m <==> c in cs[1..]
    requires st2.baselines == Replay(env.draws, st1.tick, st1.baselines, rest).0
    requires st2.tick == Replay(env.draws, st1.tick, st1.baselines, rest).1
    requires forall c :: c in cs[1..] && c != s && Lookup(st1.store, s, c, d).None? ==>
      (s, c) in st2.baselines && m[c] == Some(st2.baselines[(s, c)])
    ensures st2.baselines == Replay(env.draws, st.tick, st.baselines, ColdCalls(st.store, s, cs, d)).0
    ensures st2.tick == Replay(env.draws, st.tick, st.baselines, ColdCalls(st.store, s, cs, d)).1
    ensures forall c :: c in cs && c != s && Lookup(st.store, s, c, d).None? ==>
      (s, c) in st2.baselines && (map[cs[0] := v] + m)[c] == Some(st2.baselines[(s, c)])
  {
    var calls := ColdCalls(st.store, s, cs, d);
    if cs[0] != s && Lookup(st.store, s, cs[0], d).None? {
      assert calls == [(s, cs[0])] + rest;
      assert calls[1..] == rest;
      if cs[0] !in cs[1..] {
        ReplayKeeps(env.draws, st1.tick, st1.baselines, rest, (s, cs[0]));
      }
    } else {
      assert calls == rest;
    }
    forall c | c in cs && c != s && Lookup(st.store, s, c, d).None?
      ensures (s, c) in st2.baselines && (map[cs[0] := v] + m)[c] == Some(st2.baselines[(s, c)])
    {
      if c !in cs[1..] {
        var k :| 0 <= k < |cs| && cs[k] == c;
        if k > 0 {
          assert cs[1..][k - 1] == c;
        }
      }
    }
  }

  /** The conversion dict: the rate used and the amount it gives. */
  datatype Conversion = Conversion(source: Symbol, exchanged: Symbol, rate: real, exchangedAmount: real)

  /**
   * `get_exchanged_currency_amount`: converts at the rate resolved for
   * `today`; an unresolved rate makes the multiplication raise `TypeError`.
   */
  function ExchangedCurrencyAmount(env: Env, st: State, s: Symbol, t: Symbol, amount: real, today: Day)
    : (r: (Result<Conversion, PyError>, State))
    requires s != t && Lookup(st.store, s, t, today).None? ==> LiveSafe(env, env.providers, s, t, today)
    ensures Grows(st, r.1)
    ensures r.0.Failure? <==> Resolve(env, st, s, t, today).0.None?
    ensures r.0.Failure? ==> r.0.error == TypeError
    ensures r.0.Success? ==>
      && Resolve(env, st, s, t, today).0 == Some(r.0.value.rate)
      && r.0.value.source == s && r.0.value.exchanged == t
      && Converts(r.0.value, amount)
    ensures s == t ==> r == (Success(Conversion(s, t, 1.0, amount)), st)
  {
    var (rate, st1) := Resolve(env, st, s, t, today);
    match rate
    case None => (Failure(TypeError), st1)
    case Some(v) =>
      assert s == t ==> Convert(s, t, amount, v) == Conversion(s, t, 1.0, amount);
      (Success(Convert(s, t, amount, v)), st1)
  }

  /**
   * `c` converts `amount`: the exchanged amount is `amount` times the rate,
   * so dividing it by a nonzero rate gives `amount` back.
   */
  predicate Converts(c: Conversion, amount: real)
  {
    && c.exchangedAmount == amount * c.rate
    && (c.rate != 0.0 ==> c.exchangedAmount / c.rate == amount)
  }

  /** The conversion dict for `amount` at rate `v`. */
  function Convert(s: Symbol, t: Symbol, amount: real, v: real): (c: Conversion)
    ensures c.source == s && c.exchanged == t && c.rate == v
    ensures Converts(c, amount)
  {
    var w := amount * v;
    DividesBack(amount, v, w);
    Conversion(s, t, v, w)
  }

  /**
   * Once both directions of a pair are stored with reciprocal rates (as the
   * rows derived from one quote table are), converting an amount and
   * converting the result back gives the original amount.
   */
  lemma ConversionRoundTrip(env: Env, st: State, s: Symbol, t: Symbol, amount: real, today: Day, v: real, u: real)
    requires s != t && v * u == 1.0
    requires Lookup(st.store, s, t, today) == Some(v) && Lookup(st.store, t, s, today) == Some(u)
    ensures ExchangedCurrencyAmount(env, st, s, t, amount, today) == (Success(Conversion(s, t, v, amount * v)), st)
    ensures ExchangedCurrencyAmount(env, st, t, s, amount * v, today).0 == Success(Conversion(t, s, u, amount))
  {
    var w := amount * v;
    BackAndForth(amount, v, u, w);
    ConvertOnHit(env, st, s, t, amount, today, v, w);
    ConvertOnHit(env, st, t, s, w, today, u, amount);
  }

  lemma ConvertOnHit(env: Env, st: State, s: Symbol, t: Symbol, amount: real, today: Day, v: real, w: real)
    requires s != t && Lookup(st.store, s, t, today) == Some(v) && w == amount * v
    ensures ExchangedCurrencyAmount(env, st, s, t, amount, today) == (Success(Conversion(s, t, v, w)), st)
  {
    assert Resolve(env, st, s, t, today) == (Some(v), st);
    assert Convert(s, t, amount, v) == Conversion(s, t, v, w);
  }

  lemma BackAndForth(amount: real, v: real, u: real, w: real)
    requires v * u == 1.0 && w == amount * v
    ensures w * u == amount
  {
    assert w * u == amount * (v * u);
  }

  lemma DividesBack(amount: real, v: real, x: real)
    requires x == amount * v
    ensures v != 0.0 ==> x / v == amount
  {
  }

  /** The time-weighted-return dict. */
  datatype TwrData = TwrData(source: Symbol, exchanged: Symbol, dateFrom: Day, amount: real, twr: real)

  /** Python's truth test on a rate: `None` and `0.0` are false. */
  predicate Truthy(rate: Option<real>)
  {
    rate.Some? && rate.value != 0.0
  }

  /**
   * The return computed from the two endpoint rates: none when either is
   * `None` or zero; otherwise the relative change in value of `amount`,
   * which raises when `amount` is zero.
   */
  function ReturnFromRates(s: Symbol, t: Symbol, start: Day, amount: real, initial: Option<real>, end: Option<real>)
    : (r: Result<Option<TwrData>, PyError>)
    ensures r == Success(None) <==> !Truthy(initial) || !Truthy(end)
    ensures r.Failure? <==> Truthy(initial) && Truthy(end) && amount == 0.0
    ensures r.Failure? ==> r.error == ZeroDivisionError
    ensures r.Success? && r.value.Some? ==>
      r.value.value == TwrData(s, t, start, amount, end.value / initial.value - 1.0)
  {
    if !Truthy(initial) || !Truthy(end) then Success(None)
    else if amount * initial.value == 0.0 then
      NonZeroProduct(amount, initial.value);
      Failure(ZeroDivisionError)
    else
      var initialValue := amount * initial.value;
      var endValue := amount * end.value;
      var twr := (endValue - initialValue) / initialValue;
      ReturnIsRateRatio(amount, initial.value, end.value, twr);
      Success(Some(TwrData(s, t, start, amount, twr)))
  }

  /** `get_time_weighted_rate_return`: the rate at `start`, then the rate at `today`, then the return. */
  function TimeWeightedRateReturn(env: Env, st: State, s: Symbol, t: Symbol, start: Day, amount: real, today: Day)
    : (r: (Result<Option<TwrData>, PyError>, State))
    requires s != t && Lookup(st.store, s, t, start).None? ==> LiveSafe(env, env.providers, s, t, start)
    requires s != t && Lookup(st.store, s, t, today).None? ==> LiveSafe(env, env.providers, s, t, today)
    ensures Grows(st, r.1)
    ensures r.0 == ReturnFromRates(s, t, start, amount,
      Resolve(env, st, s, t, start).0, Resolve(env, Resolve(env, st, s, t, start).1, s, t, today).0)
    ensures s == t && amount != 0.0 ==> r == (Success(Some(TwrData(s, t, start, amount, 0.0))), st)
    ensures s == t && amount == 0.0 ==> r == (Failure(ZeroDivisionError), st)
  {
    var (initial, st1) := Resolve(env, st, s, t, start);
    var (end, st2) := Resolve(env, st1, s, t, today);
    (ReturnFromRates(s, t, start, amount, initial, end), st2)
  }

  lemma NonZeroProduct(x: real, y: real)
    requires y != 0.0 && x * y == 0.0
    ensures x == 0.0
  {
  }

  /** The relative change in value of a held amount is the relative change in the rate. */
  lemma ReturnIsRateRatio(amount: real, initial: real, end: real, twr: real)
    requires amount * initial != 0.0
    requires twr == (amount * end - amount * initial) / (amount * initial)
    ensures twr == end / initial - 1.0
  {
    var x := amount * initial;
    assert amount != 0.0 && initial != 0.0;
    assert twr * x == amount * end - x;
    assert amount * ((twr + 1.0) * initial) == amount * end;
    assert (twr + 1.0) * initial == end;
    QuotientOf(twr + 1.0, initial, end);
  }

  lemma QuotientOf(a: real, b: real, c: real)
    requires b != 0.0 && a * b == c
    ensures a == c / b
  {
  }

  /** Two inclusive date ranges queried against the service: a week gives 7 records, four weeks give 28. */
  lemma TimeSeriesCounts(env: Env, st: State, s: Symbol, start: Day)
    requires forall d, c :: start <= d <= start + 27 && c in env.registry && c != s && Lookup(st.store, s, c, d).None? ==>
      LiveSafe(env, env.providers, s, c, d)
    ensures |CurrencyRates(env, st, s, start, start + 6).0| == 7
    ensures |CurrencyRates(env, st, s, start, start + 27).0| == 28
  {
  }

  /** An initial rate of 0.9 and a final rate of 0.95 on an amount of 1.3 give a return of 1/18. */
  lemma ReturnScenario(s: Symbol, t: Symbol, start: Day)
    ensures ReturnFromRates(s, t, start, 1.3, Some(0.9), Some(0.95)) ==
      Success(Some(TwrData(s, t, start, 1.3, 1.0 / 18.0)))
  {
  }
}

=== FILE: random_client.dfy ===
/**
 * The synthetic rate generator (`RandomClient.get_random_exchange`): a keyed
 * store of last-used rates per ordered pair, perturbed on every use.
 * Randomness is an injected stream of integers; draw number `tick` is
 * `draws(tick)`.
 */
module RandomClient {
  import opened Models

  /** The last rate handed out per `(source, exchanged)` pair (`CurrencyLastExchange`). */
  type Baselines = map<(Symbol, Symbol), real>

  /** An injected source of random integers: the `n`-th draw is `draws(n)`. */
  type Draws = nat -> int

  /** The answer of one call: the rate, the baselines after it and the next draw number. */
  datatype Pick = Pick(rate: real, baselines: Baselines, tick: nat)

  /** `random.randint(lo, hi)`: the draw reduced into `[lo, hi]`; a draw already in range is kept. */
  function RandInt(draws: Draws, tick: nat, lo: int, hi: int): (k: int)
    requires lo <= hi
    ensures lo <= k <= hi
    ensures lo <= draws(tick) <= hi ==> k == draws(tick)
  {
    lo + (draws(tick) - lo) % (hi - lo + 1)
  }

  /** A baseline moved by `k` ten-thousandths of itself. */
  function Perturbed(x: real, k: int): real
  {
    x * (1.0 + k as real / 10000.0)
  }

  /** A fresh rate of `k` hundredths. */
  function Fresh(k: int): real
  {
    k as real / 100.0
  }

  /** A self-pair is 1; a known pair moves by at most 1%; a new pair gets a fresh rate in [0, 100]. */
  function GetRandomExchange(draws: Draws, tick: nat, b: Baselines, s: Symbol, t: Symbol): (r: Pick)
    ensures s == t ==> r == Pick(1.0, b, tick)
    ensures s != t ==> r.tick == tick + 1 && r.baselines == b[(s, t) := r.rate]
    ensures s != t && (s, t) in b ==>
      exists k: int :: -100 <= k <= 100 && r.rate == Perturbed(b[(s, t)], k)
    ensures s != t && (s, t) !in b ==>
      exists k: int :: 0 <= k <= 10000 && r.rate == Fresh(k)
    ensures s != t && (s, t) !in b ==> 0.0 <= r.rate <= 100.0
  {
    if s == t then Pick(1.0, b, tick)
    else if (s, t) in b then
      var k := RandInt(draws, tick, -100, 100);
      var rate := Perturbed(b[(s, t)], k);
      Pick(rate, b[(s, t) := rate], tick + 1)
    else
      var k := RandInt(draws, tick, 0, 10000);
      var rate := Fresh(k);
      Pick(rate, b[(s, t) := rate], tick + 1)
  }

  /** A perturbed non-negative baseline moves by at most a hundredth of itself. */
  lemma PerturbationBound(draws: Draws, tick: nat, b: Baselines, s: Symbol, t: Symbol)
    requires s != t && (s, t) in b && b[(s, t)] >= 0.0
    ensures b[(s, t)] - b[(s, t)] / 100.0 <= GetRandomExchange(draws, tick, b, s, t).rate
    ensures GetRandomExchange(draws, tick, b, s, t).rate <= b[(s, t)] + b[(s, t)] / 100.0
  {
    var k := RandInt(draws, tick, -100, 100);
    ScaledWithinPercent(b[(s, t)], k);
  }

  lemma ScaledWithinPercent(x: real, k: int)
    requires x >= 0.0 && -100 <= k <= 100
    ensures x - x / 100.0 <= Perturbed(x, k) <= x + x / 100.0
  {
    var f := k as real / 10000.0;
    assert -0.01 <= f <= 0.01;
    assert x * (1.0 + f) == x + x * f;
    assert -x / 100.0 <= x * f <= x / 100.0;
  }

  ghost predicate NonNegative(b: Baselines)
  {
    forall key :: key in b ==> b[key] >= 0.0
  }

  /** One call keeps every baseline non-negative and a zero baseline at zero. */
  lemma StepPreserves(draws: Draws, tick: nat, b: Baselines, s: Symbol, t: Symbol)
    requires NonNegative(b)
    ensures var r := GetRandomExchange(draws, tick, b, s, t);
      && NonNegative(r.baselines) && r.rate >= 0.0
      && (forall key :: key in b ==> key in r.baselines)
      && (forall key :: key in b && b[key] == 0.0 ==> r.baselines[key] == 0.0)
  {
    if s != t && (s, t) in b {
      var k := RandInt(draws, tick, -100, 100);
      ScaledWithinPercent(b[(s, t)], k);
    }
  }

  /** The baselines and the next draw number after a sequence of calls, each drawing from where the last stopped. */
  function Replay(draws: Draws, tick: nat, b: Baselines, calls: seq<(Symbol, Symbol)>): (r: (Baselines, nat))
    decreases |calls|
  {
    if calls == [] then (b, tick)
    else
      var p := GetRandomExchange(draws, tick, b, calls[0].0, calls[0].1);
      Replay(draws, p.tick, p.baselines, calls[1..])
  }

  /** Over any sequence of calls baselines stay non-negative, and a zero baseline stays zero. */
  lemma {:induction false} ReplayPreserves(draws: Draws, tick: nat, b: Baselines, calls: seq<(Symbol, Symbol)>)
    requires NonNegative(b)
    ensures var after := Replay(draws, tick, b, calls).0;
      && NonNegative(after)
      && (forall key :: key in b ==> key in after)
      && (forall key :: key in b && b[key] == 0.0 ==> after[key] == 0.0)
    decreases |calls|
  {
    if calls != [] {
      var p := GetRandomExchange(draws, tick, b, calls[0].0, calls[0].1);
      StepPreserves(draws, tick, b, calls[0].0, calls[0].1);
      ReplayPreserves(draws, p.tick, p.baselines, calls[1..]);
    }
  }

  /** Requests that never name `key` leave its baseline as it was. */
  lemma {:induction false} ReplayKeeps(draws: Draws, tick: nat, b: Baselines, calls: seq<(Symbol, Symbol)>, key: (Symbol, Symbol))
    requires forall k :: 0 <= k < |calls| ==> calls[k] != key
    requires key in b
    ensures key in Replay(draws, tick, b, calls).0 && Replay(draws, tick, b, calls).0[key] == b[key]
    decreases |calls|
  {
    if calls != [] {
      var p := GetRandomExchange(draws, tick, b, calls[0].0, calls[0].1);
      assert forall k :: 0 <= k < |calls[1..]| ==> calls[1..][k] == calls[k + 1];
      ReplayKeeps(draws, p.tick, p.baselines, calls[1..], key);
    }
  }
}

=== FILE: rate_store.dfy ===
/**
 * The rate store: persisted `CurrencyExchangeRate` rows in insertion order.
 * Writes append (`bulk_create`); a read returns the first matching row
 * (`.filter(...).first()`).
 */
module RateStore {
  import opened Wrappers
  import opened Models

  /** The value of the earliest stored row for `(s, t, d)`, or `None`. */
  function Lookup(store: seq<Row>, s: Symbol, t: Symbol, d: Day): (r: Option<real>)
    ensures r.None? <==> forall i :: 0 <= i < |store| ==> !store[i].Matches(s, t, d)
    ensures r.Some? ==>
      exists i :: 0 <= i < |store| && store[i].Matches(s, t, d) && store[i].value == r.value
        && forall j :: 0 <= j < i ==> !store[j].Matches(s, t, d)
  {
    if store == [] then None
    else if store[0].Matches(s, t, d) then Some(store[0].value)
    else
      var r := Lookup(store[1..], s, t, d);
      assert forall i :: 1 <= i < |store| ==> store[i] == store[1..][i - 1];
      r
  }

  /** A lookup over two appended batches reads the first batch before the second. */
  lemma {:induction false} LookupAppend(a: seq<Row>, b: seq<Row>, s: Symbol, t: Symbol, d: Day)
    ensures Lookup(a + b, s, t, d) ==
      (if Lookup(a, s, t, d).Some? then Lookup(a, s, t, d) else Lookup(b, s, t, d))
  {
    if a != [] {
      assert (a + b)[1..] == a[1..] + b;
      LookupAppend(a[1..], b, s, t, d);
    } else {
      assert a + b == b;
    }
  }

  /** Appending rows never changes the answer of a lookup that already hits. */
  lemma LookupPrefix(a: seq<Row>, b: seq<Row>, s: Symbol, t: Symbol, d: Day)
    requires a <= b
    requires Lookup(a, s, t, d).Some?
    ensures Lookup(b, s, t, d) == Lookup(a, s, t, d)
  {
    assert b == a + b[|a|..];
    LookupAppend(a, b[|a|..], s, t, d);
  }

  /** A pair missing from a store is missing from every prefix of it. */
  lemma LookupMissPrefix(a: seq<Row>, b: seq<Row>, s: Symbol, t: Symbol, d: Day)
    requires a <= b
    requires Lookup(b, s, t, d).None?
    ensures Lookup(a, s, t, d).None?
  {
    if Lookup(a, s, t, d).Some? {
      LookupPrefix(a, b, s, t, d);
    }
  }
}

=== FILE: resolution.dfy ===
/**
 * Rate resolution (`get_exchange_rate_data_db_providers`): identity first,
 * then the store, then the providers in ascending priority until one answers.
 */
module Resolution {
  import opened Wrappers
  import opened Models
  import opened RateStore
  import opened CrossRates
  import opened RandomClient
  import opened Adapters

  /**
   * Every live provider among `ps` can fetch day `d` for `(s, t)` without
   * raising. Synthetic providers never touch the service, so they need nothing.
   */
  ghost predicate LiveSafe(env: Env, ps: seq<Provider>, s: Symbol, t: Symbol, d: Day)
  {
    forall p :: p in ps && p.adapter.Fixer? ==> ServiceContract(env.backend, d, s, t)
  }

  /**
   * No configured provider can answer for source `s` on day `d`: all of them
   * are live, and the service either fails that day or does not quote `s`.
   */
  ghost predicate Unanswered(env: Env, s: Symbol, d: Day)
  {
    forall p :: p in env.providers ==>
      p.adapter.Fixer? && !(Available(env.backend, d) && s in env.backend[d].rates.values)
  }

  /** What provider `p` would answer if asked in state `st`. */
  function Answer(env: Env, st: State, p: Provider, s: Symbol, t: Symbol, d: Day): Option<RateData>
    requires p.adapter.Fixer? ==> ServiceContract(env.backend, d, s, t)
  {
    GetExchangeRateData(env, st, p, s, t, d).0
  }

  /** `ps[i]` is the first provider of `ps` that answers in state `st`. */
  ghost predicate FirstAnswering(env: Env, st: State, ps: seq<Provider>, i: int, s: Symbol, t: Symbol, d: Day)
    requires LiveSafe(env, ps, s, t, d)
  {
    && 0 <= i < |ps|
    && Answer(env, st, ps[i], s, t, d).Some?
    && forall j :: 0 <= j < i ==> Answer(env, st, ps[j], s, t, d).None?
  }

  /** The store only grows: rows are appended, never changed. */
  ghost predicate Grows(st: State, st': State)
  {
    st.store <= st'.store
  }

  /** `st'` has the synthetic baselines and draw count that asking `p` in state `st` leaves. */
  ghost predicate SyntheticAfter(env: Env, st: State, p: Provider, s: Symbol, t: Symbol, d: Day, st': State)
    requires p.adapter.Fixer? ==> ServiceContract(env.backend, d, s, t)
  {
    && st'.baselines == GetExchangeRateData(env, st, p, s, t, d).1.baselines
    && st'.tick == GetExchangeRateData(env, st, p, s, t, d).1.tick
  }

  /**
   * `ps[i]` is the first provider of `ps` to answer in state `st`, and `r`
   * carries its rate and the synthetic state its call leaves.
   */
  ghost predicate WonAt(env: Env, st: State, ps: seq<Provider>, i: int, s: Symbol, t: Symbol, d: Day, r: (Option<real>, State))
    requires LiveSafe(env, ps, s, t, d)
  {
    && FirstAnswering(env, st, ps, i, s, t, d)
    && r.0 == Some(Answer(env, st, ps[i], s, t, d).value.rate)
    && SyntheticAfter(env, st, ps[i], s, t, d, r.1)
  }

  /** Ask the providers `ps` in turn; the first answer is the result. */
  function Walk(env: Env, st: State, ps: seq<Provider>, s: Symbol, t: Symbol, d: Day): (r: (Option<real>, State))
    requires LiveSafe(env, ps, s, t, d)
    ensures Grows(st, r.1)
    ensures r.0.None? <==> forall i :: 0 <= i < |ps| ==> Answer(env, st, ps[i], s, t, d).None?
    ensures r.0.None? ==> r.1.baselines == st.baselines && r.1.tick == st.tick
    ensures r.0.Some? ==> exists i :: WonAt(env, st, ps, i, s, t, d, r)
    decreases |ps|
  {
    if ps == [] then (None, st)
    else
      var (a, st1) := GetExchangeRateData(env, st, ps[0], s, t, d);
      if a.Some? then
        assert WonAt(env, st, ps, 0, s, t, d, (Some(a.value.rate), st1));
        (Some(a.value.rate), st1)
      else
        assert LiveSafe(env, ps[1..], s, t, d) by {
          assert forall p :: p in ps[1..] ==> p in ps;
        }
        var r := Walk(env, st1, ps[1..], s, t, d);
        WalkShift(env, st, st1, ps, s, t, d, r);
        r
  }

  /** After a provider that does not answer, the rest of the walk sees the same answers. */
  lemma WalkStep(env: Env, st: State, st1: State, ps: seq<Provider>, s: Symbol, t: Symbol, d: Day)
    requires LiveSafe(env, ps, s, t, d)
    requires ps != [] && GetExchangeRateData(env, st, ps[0], s, t, d) == (None, st1)
    ensures st1.baselines == st.baselines && st1.tick == st.tick
    ensures forall i :: 1 <= i < |ps| ==>
      Answer(env, st1, ps[1..][i - 1], s, t, d) == Answer(env, st, ps[i], s, t, d)
  {
    forall i | 1 <= i < |ps|
      ensures Answer(env, st1, ps[1..][i - 1], s, t, d) == Answer(env, st, ps[i], s, t, d)
    {
      AnswerIgnoresStore(env, st1, st, ps[i], s, t, d);
    }
  }

  /** What the rest of the walk finds after a provider that does not answer is what the whole walk finds. */
  lemma WalkShift(env: Env, st: State, st1: State, ps: seq<Provider>, s: Symbol, t: Symbol, d: Day, r: (Option<real>, State))
    requires ps != [] && LiveSafe(env, ps, s, t, d) && LiveSafe(env, ps[1..], s, t, d)
    requires GetExchangeRateData(env, st, ps[0], s, t, d) == (None, st1)
    requires r.0.None? <==> forall i :: 0 <= i < |ps[1..]| ==> Answer(env, st1, ps[1..][i], s, t, d).None?
    requires r.0.Some? ==> exists i :: WonAt(env, st1, ps[1..], i, s, t, d, r)
    ensures r.0.None? <==> forall i :: 0 <= i < |ps| ==> Answer(env, st, ps[i], s, t, d).None?
    ensures r.0.Some? ==> exists i :: WonAt(env, st, ps, i, s, t, d, r)
  {
    WalkStep(env, st, st1, ps, s, t, d);
    assert Answer(env, st, ps[0], s, t, d).None?;
    if r.0.Some? {
      var j :| WonAt(env, st1, ps[1..], j, s, t, d, r);
      assert Answer(env, st1, ps[1..][j], s, t, d) == Answer(env, st, ps[j + 1], s, t, d);
      AnswerIgnoresStore(env, st1, st, ps[j + 1], s, t, d);
      forall k | 0 <= k < j + 1
        ensures Answer(env, st, ps[k], s, t, d).None?
      {
        if k > 0 {
          assert Answer(env, st1, ps[1..][k - 1], s, t, d) == Answer(env, st, ps[k], s, t, d);
        }
      }
      assert WonAt(env, st, ps, j + 1, s, t, d, r);
    } else {
      forall k | 1 <= k < |ps|
        ensures Answer(env, st, ps[k], s, t, d).None?
      {
        assert Answer(env, st1, ps[1..][k - 1], s, t, d) == Answer(env, st, ps[k], s, t, d);
      }
    }
  }

  /** `get_exchange_rate_data_db_providers`. */
  function Resolve(env: Env, st: State, s: Symbol, t: Symbol, d: Day): (r: (Option<real>, State))
    requires s != t && Lookup(st.store, s, t, d).None? ==> LiveSafe(env, env.providers, s, t, d)
    ensures Grows(st, r.1)
    ensures s == t ==> r == (Some(1.0), st)
    ensures s != t && Lookup(st.store, s, t, d).Some? ==> r == (Lookup(st.store, s, t, d), st)
    ensures forall a, c, day :: Lookup(st.store, a, c, day).Some? ==> Lookup(r.1.store, a, c, day) == Lookup(st.store, a, c, day)
  {
    if s == t then (Some(1.0), st)
    else
      match Lookup(st.store, s, t, d)
      case Some(v) => (Some(v), st)
      case None =>
        SortedMembers(env.providers);
        var r := Walk(env, st, SortByPriority(env.providers), s, t, d);
        forall a, c, day | Lookup(st.store, a, c, day).Some?
          ensures Lookup(r.1.store, a, c, day) == Lookup(st.store, a, c, day)
        {
          LookupPrefix(st.store, r.1.store, a, c, day);
        }
        r
  }

  /** Truncating the providers right after the first one that answers changes nothing: later ones are never asked. */
  lemma {:induction false} LaterProvidersNotCalled(env: Env, st: State, ps: seq<Provider>, i: int, s: Symbol, t: Symbol, d: Day)
    requires LiveSafe(env, ps, s, t, d)
    requires FirstAnswering(env, st, ps, i, s, t, d)
    ensures Walk(env, st, ps, s, t, d) == Walk(env, st, ps[..i + 1], s, t, d)
    decreases i
  {
    var head := ps[..i + 1];
    assert LiveSafe(env, head, s, t, d) by {
      assert forall p :: p in head ==> p in ps;
    }
    var st1 := GetExchangeRateData(env, st, ps[0], s, t, d).1;
    if i > 0 {
      assert Answer(env, st, ps[0], s, t, d).None?;
      PrefixTail(ps, i);
      WalkPastSilent(env, st, ps, s, t, d);
      WalkPastSilent(env, st, head, s, t, d);
      FirstAnsweringTail(env, st, st1, ps, i, s, t, d);
      LaterProvidersNotCalled(env, st1, ps[1..], i - 1, s, t, d);
    } else {
      assert head[0] == ps[0];
    }
  }

  /** A walk whose first provider does not answer continues with the rest, in the state that provider left. */
  lemma WalkPastSilent(env: Env, st: State, ps: seq<Provider>, s: Symbol, t: Symbol, d: Day)
    requires ps != [] && LiveSafe(env, ps, s, t, d)
    requires Answer(env, st, ps[0], s, t, d).None?
    ensures LiveSafe(env, ps[1..], s, t, d)
    ensures GetExchangeRateData(env, st, ps[0], s, t, d) == (None, GetExchangeRateData(env, st, ps[0], s, t, d).1)
    ensures Walk(env, st, ps, s, t, d) == Walk(env, GetExchangeRateData(env, st, ps[0], s, t, d).1, ps[1..], s, t, d)
  {
    assert forall p :: p in ps[1..] ==> p in ps;
  }

  lemma PrefixTail<T>(xs: seq<T>, i: int)
    requires 0 < i < |xs|
    ensures xs[..i + 1][0] == xs[0] && xs[..i + 1][1..] == xs[1..][..i]
  {
  }

  /** When the first provider does not answer, the first to answer among the rest is one place earlier. */
  lemma FirstAnsweringTail(env: Env, st: State, st1: State, ps: seq<Provider>, i: int, s: Symbol, t: Symbol, d: Day)
    requires ps != [] && LiveSafe(env, ps, s, t, d) && LiveSafe(env, ps[1..], s, t, d)
    requires GetExchangeRateData(env, st, ps[0], s, t, d) == (None, st1)
    requires FirstAnswering(env, st, ps, i, s, t, d) && i > 0
    ensures FirstAnswering(env, st1, ps[1..], i - 1, s, t, d)
  {
    WalkStep(env, st, st1, ps, s, t, d);
    forall j | 0 <= j < i - 1
      ensures Answer(env, st1, ps[1..][j], s, t, d).None?
    {
      assert Answer(env, st1, ps[1..][j], s, t, d) == Answer(env, st, ps[j + 1], s, t, d);
    }
    assert Answer(env, st1, ps[1..][i - 1], s, t, d) == Answer(env, st, ps[i], s, t, d);
  }


  /** Sorting keeps exactly the configured providers. */
  lemma SortedMembers(providers: seq<Provider>)
    ensures forall p :: p in SortByPriority(providers) <==> p in providers
  {
    var ps := SortByPriority(providers);
    forall p
      ensures p in ps <==> p in providers
    {
      assert p in ps <==> p in multiset(ps);
      assert p in providers <==> p in multiset(providers);
    }
  }

  /** In a list sorted by priority, a provider of strictly lower priority than `ps[i]` comes before it. */
  lemma LowerPriorityFirst(ps: seq<Provider>, i: int, o: Provider)
    requires SortedByPriority(ps) && 0 <= i < |ps|
    requires o in ps && o.priority < ps[i].priority
    ensures exists j :: 0 <= j < i && ps[j] == o
  {
    var j :| 0 <= j < |ps| && ps[j] == o;
    assert j < i;
  }

  /** On a miss, resolution fails exactly when every configured provider fails. */
  lemma PriorityFallback(env: Env, st: State, s: Symbol, t: Symbol, d: Day)
    requires LiveSafe(env, env.providers, s, t, d)
    requires s != t && Lookup(st.store, s, t, d).None?
    ensures Resolve(env, st, s, t, d).0.None? <==>
      forall p :: p in env.providers ==> Answer(env, st, p, s, t, d).None?
  {
    SortedMembers(env.providers);
    assert Resolve(env, st, s, t, d) == Walk(env, st, SortByPriority(env.providers), s, t, d);
  }

  /**
   * On a miss, the answer comes from a provider that every provider of
   * strictly lower priority failed before, and the synthetic baselines and
   * draws are left as that provider's call leaves them.
   */
  lemma PriorityWinner(env: Env, st: State, s: Symbol, t: Symbol, d: Day)
    requires LiveSafe(env, env.providers, s, t, d)
    requires s != t && Lookup(st.store, s, t, d).None?
    ensures Resolve(env, st, s, t, d).0.Some? ==>
      exists p :: p in env.providers && Answer(env, st, p, s, t, d).Some?
        && Resolve(env, st, s, t, d).0 == Some(Answer(env, st, p, s, t, d).value.rate)
        && SyntheticAfter(env, st, p, s, t, d, Resolve(env, st, s, t, d).1)
        && forall o :: o in env.providers && o.priority < p.priority ==> Answer(env, st, o, s, t, d).None?
  {
    var ps := SortByPriority(env.providers);
    SortedMembers(env.providers);
    var r := Walk(env, st, ps, s, t, d);
    assert Resolve(env, st, s, t, d) == r;
    if r.0.Some? {
      var i :| WonAt(env, st, ps, i, s, t, d, r);
      var p := ps[i];
      forall o | o in env.providers && o.priority < p.priority
        ensures Answer(env, st, o, s, t, d).None?
      {
        LowerPriorityFirst(ps, i, o);
      }
      assert p in env.providers;
    }
  }

  /** Every configured provider fails on `(s, t, d)`, in any state, exactly when no provider can answer for `s` that day. */
  lemma UnansweredIff(env: Env, st: State, s: Symbol, t: Symbol, d: Day)
    requires LiveSafe(env, env.providers, s, t, d)
    ensures Unanswered(env, s, d) <==> forall p :: p in env.providers ==> Answer(env, st, p, s, t, d).None?
  {
  }

  /**
   * Resolution yields no rate exactly when the pair is not an identity, is
   * not stored for the day, and no configured provider can answer for `s`.
   */
  lemma ResolveNone(env: Env, st: State, s: Symbol, t: Symbol, d: Day)
    requires s != t && Lookup(st.store, s, t, d).None? ==> LiveSafe(env, env.providers, s, t, d)
    ensures Resolve(env, st, s, t, d).0.None? <==> s != t && Lookup(st.store, s, t, d).None? && Unanswered(env, s, d)
  {
    if s != t && Lookup(st.store, s, t, d).None? {
      PriorityFallback(env, st, s, t, d);
      UnansweredIff(env, st, s, t, d);
    }
  }

  /** A walk writes only rows derived from the service's table for day `d`. */
  lemma {:induction false} WalkAppendsDerived(env: Env, st: State, ps: seq<Provider>, s: Symbol, t: Symbol, d: Day)
    requires LiveSafe(env, ps, s, t, d)
    ensures DerivedRows(env, d, Walk(env, st, ps, s, t, d).1.store[|st.store|..])
    decreases |ps|
  {
    var st' := Walk(env, st, ps, s, t, d).1;
    if ps == [] {
      assert st'.store[|st.store|..] == [];
    } else {
      var (a, st1) := GetExchangeRateData(env, st, ps[0], s, t, d);
      assert ps[0] in ps;
      CallAppendsDerived(env, st, ps[0], s, t, d);
      if a.None? {
        WalkPastSilent(env, st, ps, s, t, d);
        WalkAppendsDerived(env, st1, ps[1..], s, t, d);
        SuffixSplit(st.store, st1.store, st'.store);
        DerivedConcat(env, d, st1.store[|st.store|..], st'.store[|st1.store|..]);
      }
    }
  }

  /** Resolution writes only rows derived from the service's table for the requested day. */
  lemma ResolveAppendsDerived(env: Env, st: State, s: Symbol, t: Symbol, d: Day)
    requires s != t && Lookup(st.store, s, t, d).None? ==> LiveSafe(env, env.providers, s, t, d)
    ensures DerivedRows(env, d, Resolve(env, st, s, t, d).1.store[|st.store|..])
  {
    if s != t && Lookup(st.store, s, t, d).None? {
      SortedMembers(env.providers);
      WalkAppendsDerived(env, st, SortByPriority(env.providers), s, t, d);
    } else {
      assert Resolve(env, st, s, t, d).1.store[|st.store|..] == [];
    }
  }

  /** A walk whose live providers cannot answer for `s` adds no row whose source is `s`; synthetic ones add no row at all. */
  lemma {:induction false} WalkKeepsSource(env: Env, st: State, ps: seq<Provider>, s: Symbol, t: Symbol, d: Day)
    requires LiveSafe(env, ps, s, t, d)
    requires forall p :: p in ps && p.adapter.Fixer? ==> !(Available(env.backend, d) && s in env.backend[d].rates.values)
    ensures forall c, day :: Lookup(Walk(env, st, ps, s, t, d).1.store, s, c, day) == Lookup(st.store, s, c, day)
    decreases |ps|
  {
    if ps != [] {
      assert ps[0] in ps;
      var (a, st1) := GetExchangeRateData(env, st, ps[0], s, t, d);
      forall c, day
        ensures Lookup(st1.store, s, c, day) == Lookup(st.store, s, c, day)
      {
        if ps[0].adapter.Fixer? {
          FixerMissKeepsSource(env.backend, st.store, s, t, d, c, day);
        }
      }
      if a.None? {
        assert forall p :: p in ps[1..] ==> p in ps;
        WalkKeepsSource(env, st1, ps[1..], s, t, d);
      }
    }
  }

  /** When no provider can answer for `s`, resolving a pair from `s` adds no row whose source is `s`. */
  lemma ResolveKeepsSource(env: Env, st: State, s: Symbol, t: Symbol, d: Day)
    requires s != t && Lookup(st.store, s, t, d).None? ==> LiveSafe(env, env.providers, s, t, d)
    requires Unanswered(env, s, d)
    ensures forall c, day :: Lookup(Resolve(env, st, s, t, d).1.store, s, c, day) == Lookup(st.store, s, c, day)
  {
    if s != t && Lookup(st.store, s, t, d).None? {
      SortedMembers(env.providers);
      WalkKeepsSource(env, st, SortByPriority(env.providers), s, t, d);
    }
  }

  /** With a synthetic provider configured, every resolution yields a rate. */
  lemma MockAlwaysAnswers(env: Env, st: State, s: Symbol, t: Symbol, d: Day)
    requires s != t && Lookup(st.store, s, t, d).None? ==> LiveSafe(env, env.providers, s, t, d)
    requires exists m :: m in env.providers && m.adapter.Mock?
    ensures Resolve(env, st, s, t, d).0.Some?
  {
    if s != t && Lookup(st.store, s, t, d).None? {
      PriorityFallback(env, st, s, t, d);
      var m :| m in env.providers && m.adapter.Mock?;
      assert Answer(env, st, m, s, t, d).Some?;
    }
  }

  /** A pair that is already a store hit keeps its answer however many rows are appended later. */
  lemma ResolveStable(env: Env, st: State, st': State, s: Symbol, t: Symbol, d: Day)
    requires s != t && Lookup(st.store, s, t, d).Some? && Grows(st, st')
    ensures Lookup(st'.store, s, t, d) == Lookup(st.store, s, t, d)
      && Resolve(env, st', s, t, d) == (Lookup(st.store, s, t, d), st')
  {
    LookupPrefix(st.store, st'.store, s, t, d);
  }

  /** `f` is a live provider with a strictly lower priority than every synthetic one. */
  predicate LiveOutranks(providers: seq<Provider>, f: Provider)
  {
    f in providers && f.adapter.Fixer? &&
    forall m :: m in providers && m.adapter.Mock? ==> f.priority < m.priority
  }

  /** When a live provider `f` outranks every synthetic one, the first provider consulted is a live one. */
  lemma LiveProviderFirst(providers: seq<Provider>, f: Provider)
    requires LiveOutranks(providers, f)
    ensures |SortByPriority(providers)| > 0 && SortByPriority(providers)[0].adapter.Fixer?
  {
    var ps := SortByPriority(providers);
    assert f in multiset(ps);
    var k :| 0 <= k < |ps| && ps[k] == f;
    assert ps[0] in multiset(providers);
    assert k == 0 || ps[0].priority <= ps[k].priority;
  }

  /** `m` is a synthetic provider with a strictly lower priority than every live one. */
  predicate MockOutranks(providers: seq<Provider>, m: Provider)
  {
    m in providers && m.adapter.Mock? &&
    forall f :: f in providers && f.adapter.Fixer? ==> m.priority < f.priority
  }

  /** When a synthetic provider `m` outranks every live one, the first provider consulted is a synthetic one. */
  lemma MockProviderFirst(providers: seq<Provider>, m: Provider)
    requires MockOutranks(providers, m)
    ensures |SortByPriority(providers)| > 0 && SortByPriority(providers)[0].adapter.Mock?
  {
    var ps := SortByPriority(providers);
    assert m in multiset(ps);
    var k :| 0 <= k < |ps| && ps[k] == m;
    assert ps[0] in multiset(providers);
    assert k == 0 || ps[0].priority <= ps[k].priority;
  }

  /**
   * A miss answered by a synthetic provider ranked ahead of every live one:
   * the rate is the generator's, the generator's baselines and draw count
   * are carried forward, and no row is written.
   */
  lemma MockFirstResolve(env: Env, st: State, s: Symbol, t: Symbol, d: Day, m: Provider)
    requires LiveSafe(env, env.providers, s, t, d)
    requires s != t && Lookup(st.store, s, t, d).None?
    requires MockOutranks(env.providers, m)
    ensures Resolve(env, st, s, t, d) ==
      (Some(GetRandomExchange(env.draws, st.tick, st.baselines, s, t).rate),
       st.(baselines := GetRandomExchange(env.draws, st.tick, st.baselines, s, t).baselines,
           tick := GetRandomExchange(env.draws, st.tick, st.baselines, s, t).tick))
  {
    MockProviderFirst(env.providers, m);
  }

  /**
   * A synthetic provider answers every request from `s` on day `d` that
   * misses the store: one is configured, and whenever the service could
   * answer for `s` that day a synthetic provider is ranked ahead of every live one.
   */
  ghost predicate MockAnswers(env: Env, s: Symbol, d: Day)
  {
    && (exists m :: m in env.providers && m.adapter.Mock?)
    && (Available(env.backend, d) && s in env.backend[d].rates.values ==> exists m :: MockOutranks(env.providers, m))
  }

  /**
   * A miss answered by a synthetic provider, whether it is asked first or
   * after every live provider failed: the rate, baselines and draw count are
   * those of the random client's request, and no lookup from `s` changes.
   */
  lemma MockAnsweredResolve(env: Env, st: State, s: Symbol, t: Symbol, d: Day)
    requires LiveSafe(env, env.providers, s, t, d)
    requires s != t && Lookup(st.store, s, t, d).None?
    requires MockAnswers(env, s, d)
    ensures Resolve(env, st, s, t, d).0 == Some(GetRandomExchange(env.draws, st.tick, st.baselines, s, t).rate)
    ensures Resolve(env, st, s, t, d).1.baselines == GetRandomExchange(env.draws, st.tick, st.baselines, s, t).baselines
    ensures Resolve(env, st, s, t, d).1.tick == GetRandomExchange(env.draws, st.tick, st.baselines, s, t).tick
    ensures forall c, day :: Lookup(Resolve(env, st, s, t, d).1.store, s, c, day) == Lookup(st.store, s, c, day)
  {
    if Available(env.backend, d) && s in env.backend[d].rates.values {
      var m :| MockOutranks(env.providers, m);
      MockFirstResolve(env, st, s, t, d, m);
    } else {
      MockAlwaysAnswers(env, st, s, t, d);
      PriorityWinner(env, st, s, t, d);
      var p :| p in env.providers && Answer(env, st, p, s, t, d).Some?
        && Resolve(env, st, s, t, d).0 == Some(Answer(env, st, p, s, t, d).value.rate)
        && SyntheticAfter(env, st, p, s, t, d, Resolve(env, st, s, t, d).1)
        && forall o :: o in env.providers && o.priority < p.priority ==> Answer(env, st, o, s, t, d).None?;
      assert p.adapter.Mock?;
      SortedMembers(env.providers);
      WalkKeepsSource(env, st, SortByPriority(env.providers), s, t, d);
    }
  }

  /**
   * A miss answered by a live provider ranked ahead of every synthetic one,
   * on a day the service quotes the source: the rate is the cross rate of
   * that day's table, and every row derived from the table is appended.
   */
  lemma LiveFirstResolve(env: Env, st: State, s: Symbol, t: Symbol, d: Day, f: Provider)
    requires ServiceContract(env.backend, d, s, t)
    requires s != t && Lookup(st.store, s, t, d).None?
    requires Available(env.backend, d) && s in env.backend[d].rates.values
    requires LiveOutranks(env.providers, f)
    ensures Resolve(env, st, s, t, d) ==
      (Some(env.backend[d].rates.values[t] / env.backend[d].rates.values[s]),
       st.(store := st.store + Derive(env.backend[d].date, env.backend[d].rates)))
  {
    LiveProviderFirst(env.providers, f);
  }

  /**
   * Cache warm-up: once a miss is answered by the live service for day `d`,
   * every other pair of distinct currencies in that day's quote table is a
   * store hit, answered without consulting any provider.
   */
  lemma WarmUp(env: Env, st: State, s: Symbol, t: Symbol, d: Day, f: Provider, a: Symbol, c: Symbol)
    requires ServiceContract(env.backend, d, s, t)
    requires s != t && Lookup(st.store, s, t, d).None?
    requires Available(env.backend, d) && env.backend[d].date == d && s in env.backend[d].rates.values
    requires LiveOutranks(env.providers, f)
    requires a in env.backend[d].rates.values && c in env.backend[d].rates.values && a != c
    ensures ServiceContract(env.backend, d, a, c)
    ensures Lookup(Resolve(env, st, s, t, d).1.store, a, c, d).Some?
    ensures Resolve(env, Resolve(env, st, s, t, d).1, a, c, d) ==
      (Lookup(Resolve(env, st, s, t, d).1.store, a, c, d), Resolve(env, st, s, t, d).1)
    ensures Lookup(st.store, a, c, d).None? ==>
      Lookup(Resolve(env, st, s, t, d).1.store, a, c, d) == Some(env.backend[d].rates.values[c] / env.backend[d].rates.values[a])
  {
    var q := env.backend[d].rates;
    LiveProviderFirst(env.providers, f);
    var derived := Derive(d, q);
    var st' := Resolve(env, st, s, t, d).1;
    assert st' == st.(store := st.store + derived);
    LookupAppend(st.store, derived, a, c, d);
    DeriveLookup(d, q, a, c);
  }
}

=== FILE: wrappers.dfy ===
/** Failure-carrying datatypes shared by the whole model. */
module Wrappers {

  /** A value that may be absent: Python's `None` versus a value. */
  datatype Option<+T> = None | Some(value: T)

  /** The outcome of an operation that may raise an exception in the source. */
  datatype Result<+T, +E> = Success(value: T) | Failure(error: E)
}
